=== FILE: README.md ===
# FLIP pooling and command-line core, modelled in Dafny

This project models the two helper headers at the centre of the FLIP image-comparison tool.

- `pooling.h` holds two classes:
  - `histogram` counts values into equal-width buckets over `[minValue, maxValue]`. It also keeps an error counter for out-of-range values and the range of bucket indices that were used.
  - `pooling` feeds every observed per-pixel error into such a histogram. It keeps one-pass running sums, from which it computes the mean and the variance, and the minimum and maximum with their pixel coordinates. From the bucket counters it derives the plain percentile, the weighted percentile and the centre of gravity.
- `commandline.h` holds two types:
  - `unique_vector` is a vector that refuses duplicates.
  - `commandline` splits `-option value` style arguments into a command, a map from option name to its comma-separated values, and the positional arguments. It can also tokenise a whole command-line string on whitespace.

The model keeps the source's own form:

- `histogram`, `pooling`, `unique_vector` and `commandline` are classes whose methods update their fields in place, under `modifies` clauses.
- Each loop of the source is a `while` loop with its invariants:
  - the percentile walks;
  - the comma-splitting loop;
  - the argument loop of `parse`;
  - the word-reading loop;
  - the centre-of-gravity loop.
- Each loop is proved against a pure specification function:
  - `Binned.Percentile`;
  - `Binned.WeightedPercentile`;
  - `Binned.CenterOfGravity`;
  - `Tokens.Split`;
  - `Tokens.Words`;
  - `CommandLine.Run`, a fold of the per-argument step `CommandLine.Step`.
- Lemmas prove what the source promises about those functions.

Behaviour worth knowing, modelled as the code has it:

- `pooling` starts its running maximum at `DBL_MIN`, the smallest positive normal double (2^-1022), rather than the lowest double. So a run of values that are all `<= DBL_MIN` (for example, all zero errors, or positive subnormal ones) never records a maximum or its coordinate (`Pools.SmallValuesNeverMaximum`).
- `histogram::clear` resizes the counter vector to its own size. This leaves every counter in place, so `pooling::clear` does not empty the histogram either. Accordingly, `Histograms.Histogram.Clear` changes nothing. `Pools.Pooling.Clear` resets only the running sums and extrema, and keeps the last recorded coordinates.
- `histogram::init` calls `resize(buckets)` before it fills with `value`, so the fill argument never reaches an existing counter. Old counters are kept, and new ones start at zero.
- In `commandline::parse`, the "option takes a value" flag is only reset when a value is consumed. In `-a -f x`, where `a` takes a value and `f` is a flag, `x` therefore becomes a value of `f` (`CommandLine.FlagAfterArgumentOptionTakesValue`).
- `getWeightedPercentile(1.0)` never finds a crossing bucket. It returns the lower edge of the last bucket when that bucket is non-empty, and is undefined (0/0) otherwise, so it is monotone in the percentile only below 1 (`Binned.WeightedPercentileAtOne`, `Binned.WeightedPercentileMonotone`).

The project has these parts:

- Limits (`common.dfy`): `npos`, `DBL_MAX` and `DBL_MIN`, and the `size_t` truncation of a non-negative double.
- Histograms (`histogram.dfy`): the histogram class.
- Moments (`moments.dfy`): the one-pass mean and variance identities.
- Binned (`binned.dfy`): the bucket walks as functions.
- Pools (`pooling.dfy`): the aggregator class and a fold over the observed values that specifies it.
- UniqueVectors (`unique_vector.dfy`): the duplicate-free vector.
- Tokens (`tokens.dfy`): comma splitting and whitespace word extraction.
- CommandLine (`commandline.dfy`): the parser.

## Model

| member | source | states |
|---|---|---|
| Limits.TruncToSize | pooling.h:88 | converting a non-negative double to `size_t` gives its floor |
| Histograms.VectorResize | pooling.h:77-81 | `std::vector::resize` keeps the first `min(old, new)` elements and fills the rest with the fill value |
| Histograms.VectorResizeSameSize | pooling.h:72-75 | resizing to the current size leaves the vector unchanged, so `clear` empties nothing |
| Histograms.PrefixCountBump | pooling.h:102 | adding `amount` to one counter adds `amount` to every prefix count that includes it and to no other |
| Histograms.PrefixCountZero | pooling.h:46-61 | a prefix of counters sums to zero exactly when each counter in it is zero |
| Histograms.Histogram.constructor | pooling.h:46-49 | a new histogram has `count` zero counters, no recorded values, bucket size `(max-min)/count` and an empty used range (`npos`, 0) |
| Histograms.Histogram.Init | pooling.h:51-61 | resets the geometry and counts; the counters become the old ones resized to `count` (fill value unused), and the counter/total balance holds again when they were zero |
| Histograms.Histogram.Resize | pooling.h:77-81 | recomputes the bucket size for the new count and resizes the counters with zeros; nothing else changes |
| Histograms.Histogram.Clear | pooling.h:72-75 | the histogram is unchanged, because the counters are resized to their own size |
| Histograms.Histogram.GetBucketStep | pooling.h:70 | the bucket width is positive and `count` buckets of it exactly cover `[min, max]` |
| Histograms.Histogram.ValueBucketId | pooling.h:83-95 | the id is `npos` exactly for values outside `[min, max]`; otherwise it is a valid bucket index |
| Histograms.Histogram.ValueInBucket | pooling.h:83-95 | an in-range value lies in its bucket's half-open interval `[id*step, (id+1)*step)`, or is the maximum and lands in the last bucket |
| Histograms.Histogram.Inc | pooling.h:97-111 | an in-range value adds `amount` to its own counter and widens the used range to include it; an out-of-range value adds to the error counter; it keeps the geometry, the balance `sum(counters) + errors == total`, and the used range containing every non-zero counter |
| Moments.SumAppend | pooling.h:339-341 | appending a value adds it to the running sum and its square to the running square sum |
| Moments.SquaredDeviationExpand | pooling.h:254 | the sum of squared deviations from any centre equals the expansion from count, sum and square sum |
| Moments.SquaredDeviationNonNegative | pooling.h:254-256 | a sum of squared deviations is never negative |
| Moments.PopulationVariance | pooling.h:251-257 | the one-pass formula `(Σx² − (Σx)²/n)/n` is the population variance about the mean, and is never negative |
| Moments.MeanBetweenValues | pooling.h:250 | the mean lies between some observed value below it and some observed value above it |
| Binned.Counts | pooling.h:316 | the counters as reals, one per bucket, for the walk's integer running count |
| Binned.WeightedCounts | pooling.h:285-286 | bucket i contributes its count times its centre `(i + 0.5) * step` |
| Binned.Moments | pooling.h:268-271 | bucket i contributes its count times the square of its centre |
| Binned.CrossingIndex | pooling.h:292-300 | the walk stops at the first bucket whose running total exceeds the target; it stops at the last bucket when none does |
| Binned.CrossingFrom | pooling.h:314-321 | the same first-crossing property for a walk that starts at bucket i |
| Binned.Threshold | pooling.h:318 | the count threshold is the floor of `percent * numCounts` |
| Binned.PrefixNonNegative | pooling.h:297 | running totals of non-negative bucket masses are non-negative |
| Binned.PrefixMonotone | pooling.h:297 | running totals of non-negative bucket masses never decrease along the walk |
| Binned.WeightedCountsSign | pooling.h:285-286 | with a positive step every weighted mass is non-negative, and it is zero exactly for an empty bucket |
| Binned.PrefixCounts | pooling.h:312-320 | the percentile walk's running total is the histogram's prefix count |
| Binned.CrossingIndexUnique | pooling.h:292-300 | any bucket that no earlier running total passes, and whose own running total passes the target, is the crossing bucket |
| Binned.WalkInterpolates | pooling.h:292-307 | the result of the weighted walk, whether it crosses or runs off the end, is the interpolation at the crossing bucket |
| Binned.CrossingIndexMonotone | pooling.h:314-321 | a larger target never stops the walk at an earlier bucket |
| Binned.PercentileMonotone | pooling.h:310-325 | the plain percentile never decreases as the requested percent grows |
| Binned.ThresholdMonotone | pooling.h:318 | the count threshold never decreases as the percent grows |
| Binned.ShareMonotone | pooling.h:297 | the weighted target `percent * total` is non-negative and grows with the percent |
| Binned.CrossingBelowTotal | pooling.h:292-300 | below 100 % the weighted walk always crosses inside the histogram when the total mass is positive |
| Binned.RunningLast | pooling.h:292-300 | the running total at the last bucket is the whole mass |
| Binned.ShareBelow | pooling.h:297 | below 100 % the target is strictly below the total mass |
| Binned.InterpolatedInBucket | pooling.h:302-307 | when the walk crosses, the interpolated value lies inside the crossing bucket `[k*step, (k+1)*step)` |
| Binned.CrossedBucket | pooling.h:297-304 | at the crossing bucket the target lies between the mass before it and the mass through it |
| Binned.InterpolatedMonotone | pooling.h:302-307 | a larger target gives an interpolated value at least as large |
| Binned.InterpolatedAcross | pooling.h:302-307 | targets that cross in different buckets are ordered like their buckets |
| Binned.BucketsOrdered | pooling.h:302-307 | a value inside an earlier bucket is below any value inside a later bucket |
| Binned.InterpolatedWithin | pooling.h:302-307 | targets that cross in the same bucket are interpolated in order |
| Binned.LerpMonotone | pooling.h:306 | the linear interpolation inside one bucket grows with the distance into the bucket |
| Binned.InterpolationWeight | pooling.h:305 | the fraction into the bucket is in `[0, 1)` |
| Binned.InBucket | pooling.h:306 | a fraction in `[0, 1)` places the result inside bucket k |
| Binned.WeightedPercentileInBucket | pooling.h:277-308 | when the weighted walk crosses, the weighted percentile lies in the crossing bucket |
| Binned.WeightedPercentileMonotone | pooling.h:277-308 | for percents in `[0, 1)` and a positive weighted mass, the weighted percentile is defined and non-decreasing |
| Binned.WeightedPercentileSingleBucket | pooling.h:277-308 | with every value in bucket k, the weighted percentile of p is `(k + p) * step` |
| Binned.InterpolatedSingle | pooling.h:302-307 | with a single non-empty bucket, the walk interpolates inside that bucket |
| Binned.LerpFraction | pooling.h:302-306 | interpolating at `percent * w` of a bucket of mass w gives `(k + percent) * step` |
| Binned.RunningAtSingle | pooling.h:297 | with a single non-empty bucket, its running total is its own mass |
| Binned.ShareBounds | pooling.h:297 | below 100 % the target lies in `[0, total)` |
| Binned.PrefixUpToSingle | pooling.h:297 | with a single non-empty bucket, prefixes are zero before it and its mass after it |
| Binned.WeightedPercentileAtOne | pooling.h:292-307 | at 100 % the walk never crosses; the result is the lower edge of the last bucket when that bucket is non-empty, and undefined (0/0) otherwise |
| Binned.CenterOfGravityDefined | pooling.h:261-275 | the centre of gravity is undefined (a zero denominator) exactly when every bucket is empty |
| Binned.PrefixZero | pooling.h:273 | a prefix of non-negative masses is zero exactly when each mass in it is zero |
| Binned.CenterOfGravityBounds | pooling.h:261-275 | the centre of gravity lies between the centres of the first and last buckets |
| Binned.Weights | pooling.h:268 | the bucket centres `(i + 0.5) * step`, one per bucket |
| Binned.WeightsBetween | pooling.h:268 | every bucket centre lies between the first and last centres |
| Binned.MassBounds | pooling.h:268-271 | each bucket's moment is its mass times a centre between lo and hi |
| Binned.RatioOfTotals | pooling.h:273 | a ratio of totals whose terms are bounded by lo and hi times the mass is itself between lo and hi |
| Pools.LowestAt | pooling.h:344-349 | the recorded minimum's position is -1 (none) or a valid index |
| Pools.HighestAt | pooling.h:351-356 | the recorded maximum's position is -1 (none) or a valid index |
| Pools.LowestIsMinimum | pooling.h:344-349 | the running minimum is at most its start and every value, and is the start or one of the values |
| Pools.HighestIsMaximum | pooling.h:351-356 | the running maximum is at least its start and every value, and is the start or one of the values |
| Pools.LowestAtFirst | pooling.h:344-349 | no value is recorded exactly when no value is below the start; otherwise the recorded value is the first occurrence of the minimum |
| Pools.HighestAtFirst | pooling.h:351-356 | no value is recorded exactly when no value exceeds the start; otherwise the recorded value is the first occurrence of the maximum |
| Pools.TotalsAppend | pooling.h:339-342 | one update keeps count, sum and square sum equal to those of the observed values |
| Pools.MinTrackedAppend | pooling.h:344-349 | one update keeps the minimum and its coordinate tracking the first smallest value seen |
| Pools.MaxTrackedAppend | pooling.h:351-356 | one update keeps the maximum and its coordinate tracking the first largest value seen |
| Pools.FoldAppend | pooling.h:337-357 | updating with one more value is one more step of the fold |
| Pools.FoldTotals | pooling.h:339-342 | after any run of updates, count, sum and square sum are those of the values seen |
| Pools.FoldMinTracked | pooling.h:344-349 | after any run of updates, the minimum and its coordinate are those of the first smallest value, if any is below `DBL_MAX` |
| Pools.FoldMaxTracked | pooling.h:351-356 | after any run of updates, the maximum and its coordinate are those of the first largest value, if any exceeds `DBL_MIN` |
| Pools.LowestAppend | pooling.h:344-349 | the strict `<` keeps the earlier position on ties |
| Pools.HighestAppend | pooling.h:351-356 | the strict `>` keeps the earlier position on ties |
| Pools.CoordAtAppend | pooling.h:344-356 | appending a coordinate leaves earlier coordinates where they are, and the new one is at the end |
| Pools.SmallValuesNeverMaximum | pooling.h:351-356 | because the maximum starts at `DBL_MIN`, values that are all `<= DBL_MIN` never become the maximum, and no coordinate is recorded |
| Pools.Pooling.constructor | pooling.h:244 | a fresh aggregator has 100 empty buckets over `[0, 1]`, no values, a minimum of `DBL_MAX`, a maximum of `DBL_MIN`, no coordinates, zero valid and error counts and an empty used bucket range (`npos`, 0) |
| Pools.Pooling.WithBuckets | pooling.h:245 | the same as the constructor, with the given bucket count |
| Pools.Pooling.Clear | pooling.h:327-335 | resets count, sums and extrema, keeps the coordinates, and leaves the histogram untouched |
| Pools.Pooling.Reset | pooling.h:327-333 | the running state becomes the fold's start, and the histogram's total becomes the new baseline |
| Pools.Pooling.Update | pooling.h:337-357 | appends the value; adds to count, sum and square sum; counts it once in its histogram bucket (or the error counter); replaces the minimum or maximum and its coordinate only on a strict improvement; the histogram's range and bucket size stay fixed, and its used bucket range widens to include the value's bucket |
| Pools.Pooling.Accumulate | pooling.h:339-356 | the running state advances by exactly one fold step |
| Pools.Pooling.GetMinValue | pooling.h:248 | the minimum is at most every value and `DBL_MAX`, and is one of them |
| Pools.Pooling.GetMaxValue | pooling.h:249 | the maximum is at least every value and `DBL_MIN`, and is one of them |
| Pools.Pooling.GetMean | pooling.h:250 | the mean is the sum of the values over their number, and lies between the smallest and the largest value |
| Pools.Pooling.GetVariance | pooling.h:251-257 | the variance is the population variance about the mean, and is never negative |
| Pools.Pooling.GetPercentile | pooling.h:310-325 | the walk returns the centre of the first bucket whose cumulative count exceeds `floor(percent * numCounts)` |
| Pools.Pooling.GetWeightedPercentile | pooling.h:277-308 | the two loops compute the interpolated weighted percentile (undefined for a zero total) |
| Pools.Pooling.GetCenterOfGravity | pooling.h:261-275 | the loop computes the ratio of second to first weighted moments (undefined when every bucket is empty) |
| UniqueVectors.PushUnique | commandline.h:66 | adding a value keeps the old elements as a prefix, contains the value, grows by one only if the value was new, and keeps distinctness |
| UniqueVectors.PushUniqueContents | commandline.h:66 | after a push, the elements are exactly the old ones plus the value |
| UniqueVectors.PushAllAppend | commandline.h:157-160 | pushing one more token is one more push |
| UniqueVectors.PushAllContents | commandline.h:152-160 | pushing a list keeps the old elements first, holds exactly the old elements and the list, and keeps distinctness |
| UniqueVectors.DistinctCardinality | commandline.h:70 | a distinct vector's size is its number of different values |
| UniqueVectors.UniqueVector.constructor | commandline.h:63 | a new vector is empty |
| UniqueVectors.UniqueVector.PushBack | commandline.h:66 | the elements become the old ones plus the value if it was not there yet |
| UniqueVectors.UniqueVector.Contains | commandline.h:71 | true exactly when some element equals the value |
| UniqueVectors.UniqueVector.At | commandline.h:67-68 | an element exactly for indices below the size (otherwise `out_of_range`); the element is in the vector |
| UniqueVectors.UniqueVector.Size | commandline.h:70 | for a valid vector, the size is the number of different values |
| UniqueVectors.UniqueVector.End | commandline.h:74 | `npos` or a position past the size means the size; any other position is returned unchanged |
| UniqueVectors.UniqueVector.Assign | commandline.h:69 | writing through the non-const index operator replaces that element if the index is in range, and fails otherwise; a duplicate-free vector stays duplicate-free exactly when the write fails, rewrites the same value, or writes a value not yet present |
| UniqueVectors.AssignDistinct | commandline.h:69 | writing value v at index i of a duplicate-free vector keeps it duplicate-free exactly when v is already at i or occurs nowhere in it, so the non-const index operator can break uniqueness |
| Tokens.Find | commandline.h:155 | a found position holds the delimiter |
| Tokens.FindFirst | commandline.h:155 | the found position is the first delimiter; nothing is found exactly when there is no delimiter |
| Tokens.Split | commandline.h:152-160 | splitting always yields at least one token, the last one being the remainder |
| Tokens.SplitAdvance | commandline.h:155-158 | one pass of the loop moves the token before the first comma from the remainder to the pushed tokens |
| Tokens.SplitCommaFree | commandline.h:152-160 | no token contains a comma |
| Tokens.JoinSplit | commandline.h:152-160 | joining the tokens with commas gives back the argument |
| Tokens.SplitJoin | commandline.h:152-160 | splitting a comma-join of comma-free tokens gives back the tokens |
| Tokens.FindAfter | commandline.h:155 | in a comma-free token followed by a comma, the comma is found right after the token |
| Tokens.SkipSpaces | commandline.h:184 | skips exactly the leading whitespace |
| Tokens.WordEnd | commandline.h:184 | stops at the first whitespace character after a run of non-whitespace |
| Tokens.Extract | commandline.h:184 | a word read by `>>` is a non-empty slice of the input that ends at the reading position |
| Tokens.ExtractShape | commandline.h:184 | no word is read exactly when only whitespace remains; a read word has no whitespace and is followed by whitespace or the end |
| Tokens.WordsAdvance | commandline.h:184-185 | reading one more word moves it from the remaining words to the words read |
| Tokens.WordsAreWords | commandline.h:184-185 | every extracted word is non-empty and whitespace-free |
| Tokens.WordsFromAreWords | commandline.h:184-185 | the same for the words read from any position |
| Tokens.WordsKeepText | commandline.h:184-185 | the words, concatenated, are the input with its whitespace removed |
| Tokens.WordsFromKeepText | commandline.h:184-185 | the same for the words read from any position |
| Tokens.SkippedText | commandline.h:184 | skipping whitespace loses no non-whitespace text |
| Tokens.WordText | commandline.h:184 | a word's characters are the start of the remaining non-whitespace text |
| Tokens.NonSpaceAppend | commandline.h:184 | removing whitespace distributes over concatenation |
| Tokens.NonSpaceOfSpaces | commandline.h:184 | only-whitespace text has no non-whitespace content |
| Tokens.NonSpaceOfWord | commandline.h:184 | a whitespace-free text is its own content |
| Tokens.WordsSpaced | commandline.h:182-185 | words joined by single spaces are read back as exactly those words |
| Tokens.SpacedLayout | commandline.h:182-185 | a space-joined text has each word followed by one space at the expected positions |
| Tokens.WordsFromSpaced | commandline.h:182-185 | reading such a layout from its start gives back the words |
| Tokens.WordsFromLast | commandline.h:184-185 | reading the last word of a layout ends the words |
| Tokens.WordThenSpace | commandline.h:184-185 | a word followed by a space is read, and reading resumes after the space |
| Tokens.SpacedParts | commandline.h:182-185 | a space-joined text starts with its first word and a space |
| Tokens.SliceParts | commandline.h:182-185 | a suffix that is a concatenation splits into its two parts at the expected position |
| Tokens.WordsFromWord | commandline.h:184-185 | a word followed by whitespace or the end is the next word read |
| Tokens.WordEndAt | commandline.h:184 | a word stops exactly at the first whitespace after it |
| Tokens.WordsFromSkip | commandline.h:184 | leading whitespace does not change the words read |
| CommandLine.ExtendsTransitive | commandline.h:120-170 | growing the option map is transitive |
| CommandLine.Push | commandline.h:128 | pushing a value registers the option and stores the value under it |
| CommandLine.PushKeeps | commandline.h:128 | other options are untouched, no value is lost, and each option's values stay distinct |
| CommandLine.PushTokensKeeps | commandline.h:152-160 | pushing the comma-separated tokens loses no value, keeps values distinct and registers the option |
| CommandLine.PushTokensAppend | commandline.h:157 | pushing one more token is one more push |
| CommandLine.StepKeeps | commandline.h:122-169 | one argument never removes an option value or a positional argument, and keeps option values distinct |
| CommandLine.RunKeeps | commandline.h:120-170 | the same for the whole argument loop |
| CommandLine.Finish | commandline.h:171-174 | a pending option at the end gets an empty value; otherwise the options are unchanged |
| CommandLine.FinishKeeps | commandline.h:171-174 | finishing loses no value and keeps values distinct |
| CommandLine.RunAppend | commandline.h:120-170 | processing one more argument is one more step |
| CommandLine.UnknownDashIsArgument | commandline.h:142-146 | a dash argument that names no allowed option is kept as a positional argument, and leaves option mode |
| CommandLine.ValueSplitOnCommas | commandline.h:150-163 | a value for an option that takes one is split on commas, and every piece is stored under that option |
| CommandLine.PendingOptionGetsEmpty | commandline.h:126-129 | a new dash argument while an option is pending gives the pending option an empty value |
| CommandLine.FlagKeepsArgumentMode | commandline.h:131-135 | a flag option is registered and does not reset whether the pending option takes a value |
| CommandLine.TokenAfterFlagIsArgument | commandline.h:165-168 | a plain token after a flag option is a positional argument |
| CommandLine.NoOptionsAllowed | commandline.h:113-176 | with no allowed options, every argument becomes a positional argument in order |
| CommandLine.FlagAfterArgumentOptionTakesValue | commandline.h:131-163 | in `-a -f x`, with `a` taking a value and `f` a flag, `f` receives `x`, and `a` receives an empty value |
| CommandLine.PushValues | commandline.h:152-160 | the comma loop pushes exactly the comma-separated tokens of the argument, in order, without duplicates |
| CommandLine.ReadWords | commandline.h:182-185 | the `>>` loop reads exactly the whitespace-separated words of the line |
| CommandLine.CommandLine.constructor | commandline.h:91-94 | the default command line is empty |
| CommandLine.CommandLine.FromArgs | commandline.h:95-99 | constructing from `argv` sets the command to `argv[0]` and parses the rest |
| CommandLine.CommandLine.FromLine | commandline.h:100-104 | constructing from a line sets the command to its first word and parses the other words |
| CommandLine.CommandLine.Clear | commandline.h:106-111 | clearing empties the command, the options and the arguments |
| CommandLine.CommandLine.Parse | commandline.h:113-176 | the command is `argv[0]`; options and arguments are what the argument loop and the final pending-option step produce from the old ones, and values stay distinct |
| CommandLine.CommandLine.ParseArgument | commandline.h:122-169 | one pass of the loop body changes the parser state exactly as one parsing step does |
| CommandLine.CommandLine.ParseLine | commandline.h:178-192 | parsing a line parses its whitespace-separated words |
| CommandLine.CommandLine.GetArgument | commandline.h:204-208 | the returned value is the positional argument at the index, which the source asserts is in range |
| CommandLine.CommandLine.GetOptionValues | commandline.h:225-233 | the values stored for an option, or none; for a valid parser they are distinct and non-empty exactly for a set option |
| CommandLine.CommandLine.GetNumOptionValues | commandline.h:247-250 | the number of values, which is zero exactly for an unset option |
| CommandLine.CommandLine.OptionSet | commandline.h:252-255 | true exactly when the option is in the map; for a valid parser, exactly when it has a value |
| CommandLine.CommandLine.GetOption | commandline.h:235-245 | the value at the index if there is one; otherwise the empty string |
| CommandLine.CommandLine.GetOptionValue | commandline.h:215-223 | the first value of the option, or the empty string when it is unset |

## Left out

- `histogram::toPython`, `pooling::toString` and `pooling::save`: these only write text or files. Output formatting is not modelled.
- `pooling::getStdDev`: it is the square root of `getVariance`, and square roots are not part of this model.
- IEEE-754 doubles: values are exact reals. Rounding, NaN and infinities are not modelled. A division whose denominator can be zero returns an `Option`, with `None` where the source would produce a non-finite double.
- Pools.Pooling.GetMean, Pools.Pooling.GetVariance: these require at least one value, because with none the source divides zero by zero.
- The variance bias setting (`mVarianceBias`) and `isSampled`: only the default population variance is modelled.
- Histograms.Histogram.constructor, Histograms.Histogram.Init, Histograms.Histogram.Resize: these require `minValue == 0`. Every histogram the aggregator builds spans `[0, 1]`. A non-zero minimum would also make the source's bucket index `value / bucketSize` disagree with its range check.
- Uninitialised pixel coordinates: a coordinate that was never recorded is `None`.
- The `unique_vector` iterator class, `begin`, and the conversion operators: pointer iteration is not modelled. `end(pos)` is modelled.
- Building `char*` argument arrays in `commandline::parse(string)`: the model passes each word on whole. The source passes each word as `c_str()` and rebuilds it with `std::string arg(argv[i])`, so a word containing a NUL character (which `>>` does not treat as whitespace) is cut at the first NUL; that truncation is not modelled.
- CommandLine.CommandLine.Parse, CommandLine.CommandLine.FromArgs: these require a non-empty `argv`, because the source reads `argv[0]` unconditionally.
- CommandLine.CommandLine.ParseLine, CommandLine.CommandLine.FromLine: these require at least one word. On an empty line the source reads `argv[0]` out of bounds.
- `size_t` wrap-around: counters and indices are unbounded naturals, and `npos` is a constant that no bucket count reaches.
- `pooling::getHistogram`: it returns a reference to the owned histogram. This aliasing is not modelled beyond the aggregator's `hist` field.
- Accessors that only read a field are not modelled separately: `getBucketSize`, `getBucketIdMin`, `getBucketIdMax`, `getBucketValue`, `size`, `getMinValue`, `getMaxValue`, `getCommand`, `getNumArguments`, `getArguments`. The fields they read are public in the model.
- CommandLine.CommandLine.GetOptionValues, CommandLine.CommandLine.GetOption: values are returned, not references into the map. The source's cast of a `unique_vector` reference to a `vector` reference, and `getOption`'s reference into a local copy, are not modelled.
- `std::stringstream` extraction is modelled by `Tokens.Extract`, with whitespace as space, tab, newline, vertical tab, form feed and carriage return. Locales are not modelled.
- Pools.Pooling.Update: the histogram increment is placed after the minimum/maximum updates, where the source does it before them. The two touch disjoint state, so the order is not observable.
- Histograms.Histogram.constructor, Histograms.Histogram.Init, Histograms.Histogram.Resize, Pools.Pooling.WithBuckets: these require a bucket count above zero. With zero buckets the source's bucket size is infinite and the first `inc` writes to bucket 0 of an empty vector.
- Pools.Pooling.GetPercentile: requires a non-negative percent. The `size_t` conversion of a negative product is undefined in the source below -1, and the model does not distinguish the small negative products for which it happens to be zero.

=== FILE: binned.dfy ===
/**
 * Statistics estimated from the bucket counters alone (pooling.h, pooling::getPercentile,
 * getWeightedPercentile and getCenterOfGravity), stated as functions of the counters and
 * the bucket step. Each bucket i stands for the point (i + 0.5) * step, its midpoint.
 */
module Binned {
  import opened Optional
  import Histograms

  /** The midpoint of bucket i, the source's "weight". */
  function Weight(i: nat, step: real): real {
    (i as real + 0.5) * step
  }

  /** Counter times weight: the mass a bucket contributes to the weighted walks. */
  function Scale(count: nat, w: real): real {
    count as real * w
  }

  /** The counters as reals. */
  function Counts(b: seq<nat>): (m: seq<real>)
    ensures |m| == |b| && forall i | 0 <= i < |b| :: m[i] == b[i] as real
  {
    seq(|b|, i requires 0 <= i < |b| => b[i] as real)
  }

  /** count_i * w_i for every bucket. */
  function WeightedCounts(b: seq<nat>, step: real): (m: seq<real>)
    ensures |m| == |b| && forall i | 0 <= i < |b| :: m[i] == Scale(b[i], Weight(i, step))
  {
    seq(|b|, i requires 0 <= i < |b| => Scale(b[i], Weight(i, step)))
  }

  /** A bucket's mass times its weight: its term in the centre of gravity's numerator. */
  function Moment(mass: real, w: real): real {
    mass * w
  }

  /** count_i * w_i * w_i for every bucket. */
  function Moments(b: seq<nat>, step: real): (m: seq<real>)
    ensures |m| == |b|
    ensures forall i | 0 <= i < |b| :: m[i] == Moment(Scale(b[i], Weight(i, step)), Weight(i, step))
  {
    seq(|b|, i requires 0 <= i < |b| => Moment(Scale(b[i], Weight(i, step)), Weight(i, step)))
  }

  /** Sum of the first k masses. */
  function Prefix(m: seq<real>, k: nat): real
    requires k <= |m|
  {
    if k == 0 then 0.0 else Prefix(m, k - 1) + m[k - 1]
  }

  function Total(m: seq<real>): real {
    Prefix(m, |m|)
  }

  /** The running total through bucket j (buckets 0..j). */
  function Running(m: seq<real>, j: nat): real
    requires j < |m|
  {
    Prefix(m, j + 1)
  }

  ghost predicate NonNegative(m: seq<real>) {
    forall i | 0 <= i < |m| :: 0.0 <= m[i]
  }

  /**
   * The bucket where the walk stops: the first k whose running total (buckets 0..k)
   * exceeds target, or the last bucket when no running total does.
   */
  function CrossingIndex(m: seq<real>, target: real): (k: nat)
    requires |m| > 0
    ensures k < |m|
    ensures forall j | 0 <= j < k :: Running(m, j) <= target
    ensures k < |m| - 1 ==> target < Running(m, k)
  {
    CrossingFrom(m, target, 0)
  }

  /** The walk from bucket i on, given that no earlier running total exceeded target. */
  function CrossingFrom(m: seq<real>, target: real, i: nat): (k: nat)
    requires i < |m|
    ensures i <= k < |m|
    ensures forall j | i <= j < k :: Running(m, j) <= target
    ensures k < |m| - 1 ==> target < Running(m, k)
    decreases |m| - i
  {
    if target < Running(m, i) || i == |m| - 1 then i else CrossingFrom(m, target, i + 1)
  }

  /** Whether the walk stopped because the running total exceeded target. */
  predicate Crossed(m: seq<real>, target: real)
    requires |m| > 0
  {
    target < Running(m, CrossingIndex(m, target))
  }

  /** size_t(percent * numCounts): the count the running count must exceed. */
  function Threshold(percent: real, numCounts: nat): (t: nat)
    requires 0.0 <= percent
    ensures t as real <= percent * numCounts as real < t as real + 1.0
  {
    NonNegativeProduct(percent, numCounts as real);
    (percent * numCounts as real).Floor
  }

  /**
   * getPercentile: the midpoint of the first bucket whose running count exceeds
   * the threshold, or of the last bucket.
   */
  function Percentile(b: seq<nat>, step: real, percent: real, numCounts: nat): real
    requires |b| > 0 && 0.0 <= percent
  {
    Weight(CrossingIndex(Counts(b), Threshold(percent, numCounts) as real), step)
  }

  /** percent * total: the weighted mass the walk must exceed. */
  function Share(percent: real, total: real): real {
    percent * total
  }

  /**
   * getWeightedPercentile: walks the weighted counts to the bucket k where the running
   * weighted total first exceeds percent * total (or the last bucket, having added it),
   * then interpolates inside k. None stands for the non-finite result of dividing by a
   * zero weighted count.
   */
  function WeightedPercentile(b: seq<nat>, step: real, percent: real): Option<real>
    requires |b| > 0
  {
    var m := WeightedCounts(b, step);
    Interpolated(m, step, Share(percent, Total(m)))
  }

  /**
   * The stop bucket k for target, the running total before it (or through it, when the
   * walk ran off the end) and the linear interpolation (k + (target - sum) / m[k]) * step.
   */
  function Interpolated(m: seq<real>, step: real, target: real): Option<real>
    requires |m| > 0
  {
    var k := CrossingIndex(m, target);
    InterpolateIn(m, step, target, k, if Crossed(m, target) then Prefix(m, k) else Running(m, k))
  }

  /** Interpolation inside bucket k from the running total sum; None when the bucket is empty. */
  function InterpolateIn(m: seq<real>, step: real, target: real, k: nat, sum: real): Option<real>
    requires k < |m|
  {
    if m[k] == 0.0 then None else Some(Lerp(k, target - sum, m[k], step))
  }

  /** (k + d / w) * step: bucket k's lower edge plus the fraction d / w of a step. */
  function Lerp(k: nat, d: real, w: real, step: real): real
    requires w != 0.0
  {
    (k as real + d / w) * step
  }

  /**
   * getCenterOfGravity: sum of count * w^2 over sum of count * w. None stands for the
   * non-finite result of dividing by a zero weighted total.
   */
  function CenterOfGravity(b: seq<nat>, step: real): Option<real> {
    var total := Total(WeightedCounts(b, step));
    if total == 0.0 then None else Some(Total(Moments(b, step)) / total)
  }

  // ---------------------------------------------------------------- lemmas

  lemma {:induction false} PrefixNonNegative(m: seq<real>, k: nat)
    requires NonNegative(m) && k <= |m|
    ensures 0.0 <= Prefix(m, k)
  {
    if k > 0 {
      PrefixNonNegative(m, k - 1);
    }
  }

  /** Running totals of non-negative masses never decrease. */
  lemma {:induction false} PrefixMonotone(m: seq<real>, j: nat, k: nat)
    requires NonNegative(m) && j <= k <= |m|
    ensures Prefix(m, j) <= Prefix(m, k)
  {
    if j < k {
      PrefixMonotone(m, j, k - 1);
    }
  }

  /** With a positive step every weighted count is non-negative, and zero only for an empty bucket. */
  lemma WeightedCountsSign(b: seq<nat>, step: real)
    requires 0.0 < step
    ensures NonNegative(WeightedCounts(b, step))
    ensures forall i | 0 <= i < |b| :: WeightedCounts(b, step)[i] == 0.0 <==> b[i] == 0
  {
    forall i | 0 <= i < |b|
      ensures 0.0 <= Scale(b[i], Weight(i, step))
      ensures Scale(b[i], Weight(i, step)) == 0.0 <==> b[i] == 0
    {
      assert 0.0 < Weight(i, step);
    }
  }

  /** The counters' running totals as reals are the integer running totals. */
  lemma {:induction false} PrefixCounts(b: seq<nat>, k: nat)
    requires k <= |b|
    ensures Prefix(Counts(b), k) == Histograms.PrefixCount(b, k) as real
  {
    if k > 0 {
      PrefixCounts(b, k - 1);
    }
  }

  /**
   * The walk's stop bucket is the only k with no running total before it above target
   * and whose own running total is above target unless k is the last bucket.
   */
  lemma CrossingIndexUnique(m: seq<real>, target: real, k: nat)
    requires k < |m|
    requires forall j | 0 <= j < k :: Running(m, j) <= target
    requires k == |m| - 1 || target < Running(m, k)
    ensures CrossingIndex(m, target) == k
  {
  }

  /**
   * A walk that stopped at k, where sum is the running total before k when the walk
   * crossed there and through k when it ran off the end, interpolates as Interpolated.
   */
  lemma WalkInterpolates(m: seq<real>, step: real, target: real, k: nat, sum: real, crossed: bool)
    requires k < |m|
    requires forall j | 0 <= j < k :: Running(m, j) <= target
    requires crossed ==> target < Running(m, k) && sum == Prefix(m, k)
    requires !crossed ==> k == |m| - 1 && Running(m, k) <= target && sum == Running(m, k)
    ensures Interpolated(m, step, target) == InterpolateIn(m, step, target, k, sum)
  {
    CrossingIndexUnique(m, target, k);
    assert Crossed(m, target) == crossed;
    assert sum == if Crossed(m, target) then Prefix(m, k) else Running(m, k);
  }

  /** A larger target never moves the walk to an earlier bucket. */
  lemma CrossingIndexMonotone(m: seq<real>, t1: real, t2: real)
    requires |m| > 0 && t1 <= t2
    ensures CrossingIndex(m, t1) <= CrossingIndex(m, t2)
  {
  }

  /** getPercentile is monotone in percent. */
  lemma PercentileMonotone(b: seq<nat>, step: real, p1: real, p2: real, numCounts: nat)
    requires |b| > 0 && 0.0 <= p1 <= p2 && 0.0 <= step
    ensures Percentile(b, step, p1, numCounts) <= Percentile(b, step, p2, numCounts)
  {
    ThresholdMonotone(p1, p2, numCounts);
    var t1, t2 := Threshold(p1, numCounts) as real, Threshold(p2, numCounts) as real;
    CrossingIndexMonotone(Counts(b), t1, t2);
    WeightMonotone(CrossingIndex(Counts(b), t1), CrossingIndex(Counts(b), t2), step);
  }

  lemma ThresholdMonotone(p1: real, p2: real, numCounts: nat)
    requires 0.0 <= p1 <= p2
    ensures Threshold(p1, numCounts) <= Threshold(p2, numCounts)
  {
    Histograms.MulMonotone(p1, p2, numCounts as real);
    FloorMonotone(p1 * numCounts as real, p2 * numCounts as real);
  }

  lemma ShareMonotone(p1: real, p2: real, t: real)
    requires 0.0 <= p1 <= p2 && 0.0 <= t
    ensures 0.0 <= Share(p1, t) <= Share(p2, t)
  {
    Histograms.MulMonotone(0.0, p1, t);
    Histograms.MulMonotone(p1, p2, t);
  }

  lemma NonNegativeProduct(x: real, y: real)
    requires 0.0 <= x && 0.0 <= y
    ensures 0.0 <= x * y
  {
    Histograms.MulMonotone(0.0, x, y);
  }

  lemma WeightMonotone(i: nat, j: nat, step: real)
    requires i <= j && 0.0 <= step
    ensures Weight(i, step) <= Weight(j, step)
  {
    Histograms.MulMonotone(i as real + 0.5, j as real + 0.5, step);
  }

  lemma FloorMonotone(x: real, y: real)
    requires x <= y
    ensures x.Floor <= y.Floor
  {
  }

  /** Below 100 percent of a positive total, the walk always stops on a crossing. */
  lemma CrossingBelowTotal(m: seq<real>, percent: real)
    requires |m| > 0 && 0.0 < Total(m) && percent < 1.0
    ensures Crossed(m, Share(percent, Total(m)))
  {
    var k := CrossingIndex(m, Share(percent, Total(m)));
    if k == |m| - 1 {
      ShareBelow(percent, Total(m));
      RunningLast(m);
    }
  }

  lemma RunningLast(m: seq<real>)
    requires |m| > 0
    ensures Running(m, |m| - 1) == Total(m)
  {
    assert |m| - 1 + 1 == |m|;
  }

  lemma ShareBelow(percent: real, t: real)
    requires percent < 1.0 && 0.0 < t
    ensures Share(percent, t) < t
  {
    Histograms.MulStrictMonotone(percent, 1.0, t);
  }

  /**
   * Where the walk over non-negative masses stops on a crossing of a non-negative target,
   * the stop bucket has positive mass and the interpolation lands inside that bucket.
   */
  lemma InterpolatedInBucket(m: seq<real>, step: real, target: real)
    requires |m| > 0 && NonNegative(m) && 0.0 < step && 0.0 <= target
    requires Crossed(m, target)
    ensures var k := CrossingIndex(m, target);
      && 0.0 < m[k]
      && Interpolated(m, step, target).Some?
      && k as real * step <= Interpolated(m, step, target).value < (k + 1) as real * step
  {
    var k := CrossingIndex(m, target);
    CrossedBucket(m, target);
    InBucket(k, target - Prefix(m, k), m[k], step);
  }

  /**
   * Where the walk stops on a crossing of a non-negative target, the target lies inside the
   * stop bucket's mass: 0 <= target - Prefix(m, k) < m[k].
   */
  lemma CrossedBucket(m: seq<real>, target: real)
    requires |m| > 0 && 0.0 <= target
    requires Crossed(m, target)
    ensures var k := CrossingIndex(m, target);
      0.0 <= target - Prefix(m, k) < m[k]
  {
    var k := CrossingIndex(m, target);
    if k > 0 {
      assert Running(m, k - 1) <= target;
    }
  }

  /** Interpolation is monotone in the target while both targets are crossed. */
  lemma InterpolatedMonotone(m: seq<real>, step: real, t1: real, t2: real)
    requires |m| > 0 && NonNegative(m) && 0.0 < step && 0.0 <= t1 <= t2
    requires Crossed(m, t1) && Crossed(m, t2)
    ensures Interpolated(m, step, t1).Some? && Interpolated(m, step, t2).Some?
    ensures Interpolated(m, step, t1).value <= Interpolated(m, step, t2).value
  {
    CrossingIndexMonotone(m, t1, t2);
    if CrossingIndex(m, t1) < CrossingIndex(m, t2) {
      InterpolatedAcross(m, step, t1, t2);
    } else {
      InterpolatedWithin(m, step, t1, t2);
    }
  }

  /** Targets stopping in different buckets: the lower bucket's estimate is below the upper one's. */
  lemma InterpolatedAcross(m: seq<real>, step: real, t1: real, t2: real)
    requires |m| > 0 && NonNegative(m) && 0.0 < step && 0.0 <= t1 && 0.0 <= t2
    requires Crossed(m, t1) && Crossed(m, t2)
    requires CrossingIndex(m, t1) < CrossingIndex(m, t2)
    ensures Interpolated(m, step, t1).Some? && Interpolated(m, step, t2).Some?
    ensures Interpolated(m, step, t1).value <= Interpolated(m, step, t2).value
  {
    var k1, k2 := CrossingIndex(m, t1), CrossingIndex(m, t2);
    InterpolatedInBucket(m, step, t1);
    InterpolatedInBucket(m, step, t2);
    BucketsOrdered(Interpolated(m, step, t1).value, Interpolated(m, step, t2).value, k1, k2, step);
  }

  /** A value below bucket k1's upper edge is below a value above a later bucket k2's lower edge. */
  lemma BucketsOrdered(v1: real, v2: real, k1: nat, k2: nat, step: real)
    requires k1 < k2 && 0.0 <= step
    requires v1 < (k1 + 1) as real * step && k2 as real * step <= v2
    ensures v1 <= v2
  {
    Histograms.MulMonotone((k1 + 1) as real, k2 as real, step);
  }

  /** Targets stopping in the same bucket: the larger target interpolates further in. */
  lemma InterpolatedWithin(m: seq<real>, step: real, t1: real, t2: real)
    requires |m| > 0 && 0.0 <= step && 0.0 <= t1 <= t2
    requires Crossed(m, t1) && Crossed(m, t2)
    requires CrossingIndex(m, t1) == CrossingIndex(m, t2)
    ensures Interpolated(m, step, t1).Some? && Interpolated(m, step, t2).Some?
    ensures Interpolated(m, step, t1).value <= Interpolated(m, step, t2).value
  {
    var k := CrossingIndex(m, t1);
    CrossedBucket(m, t1);
    var p := Prefix(m, k);
    var v1, v2 := Interpolated(m, step, t1).value, Interpolated(m, step, t2).value;
    assert v1 == Lerp(k, t1 - p, m[k], step);
    assert v2 == Lerp(k, t2 - p, m[k], step);
    LerpMonotone(k, t1 - p, t2 - p, m[k], step);
    assert v1 <= v2;
  }

  lemma LerpMonotone(k: nat, d1: real, d2: real, w: real, step: real)
    requires d1 <= d2 && 0.0 < w && 0.0 <= step
    ensures Lerp(k, d1, w, step) <= Lerp(k, d2, w, step)
  {
    DivideMonotone(d1, d2, w);
    Histograms.MulMonotone(k as real + d1 / w, k as real + d2 / w, step);
  }

  /** 0 <= d < w gives an interpolation weight d / w in [0, 1). */
  lemma InterpolationWeight(d: real, w: real)
    requires 0.0 <= d < w
    ensures 0.0 <= d / w < 1.0
  {
  }

  /** Lerp(k, d, w, step) lies in bucket k when 0 <= d < w. */
  lemma InBucket(k: nat, d: real, w: real, step: real)
    requires 0.0 <= d < w && 0.0 < step
    ensures k as real * step <= Lerp(k, d, w, step) < (k + 1) as real * step
  {
    InterpolationWeight(d, w);
    Histograms.MulMonotone(k as real, k as real + d / w, step);
    Histograms.MulStrictMonotone(k as real + d / w, k as real + 1.0, step);
  }

  /**
   * Where the weighted walk stops on a crossing with percent >= 0, the bucket is not
   * empty, the interpolation weight lies in [0, 1) and the estimate lies in that bucket.
   */
  lemma WeightedPercentileInBucket(b: seq<nat>, step: real, percent: real)
    requires |b| > 0 && 0.0 < step && 0.0 <= percent
    requires Crossed(WeightedCounts(b, step), Share(percent, Total(WeightedCounts(b, step))))
    ensures var m := WeightedCounts(b, step);
      var k := CrossingIndex(m, Share(percent, Total(m)));
      && b[k] > 0
      && WeightedPercentile(b, step, percent).Some?
      && k as real * step <= WeightedPercentile(b, step, percent).value < (k + 1) as real * step
  {
    var m := WeightedCounts(b, step);
    var t := Share(percent, Total(m));
    var k := CrossingIndex(m, t);
    assert NonNegative(m) && (m[k] == 0.0 <==> b[k] == 0) by {
      WeightedCountsSign(b, step);
    }
    assert 0.0 <= t by {
      PrefixNonNegative(m, |m|);
      NonNegativeProduct(percent, Total(m));
    }
    InterpolatedInBucket(m, step, t);
    assert WeightedPercentile(b, step, percent) == Interpolated(m, step, t);
  }

  /**
   * The weighted percentile is monotone in percent on [0, 1) when some bucket is not empty.
   */
  lemma WeightedPercentileMonotone(b: seq<nat>, step: real, p1: real, p2: real)
    requires |b| > 0 && 0.0 < step && 0.0 <= p1 <= p2 < 1.0
    requires 0.0 < Total(WeightedCounts(b, step))
    ensures WeightedPercentile(b, step, p1).Some? && WeightedPercentile(b, step, p2).Some?
    ensures WeightedPercentile(b, step, p1).value <= WeightedPercentile(b, step, p2).value
  {
    var m := WeightedCounts(b, step);
    WeightedCountsSign(b, step);
    PrefixNonNegative(m, |m|);
    ShareMonotone(p1, p2, Total(m));
    CrossingBelowTotal(m, p1);
    CrossingBelowTotal(m, p2);
    InterpolatedMonotone(m, step, Share(p1, Total(m)), Share(p2, Total(m)));
  }

  /**
   * With all the mass in one bucket k, the weighted percentile for percent in [0, 1) is
   * exactly (k + percent) * step.
   */
  lemma WeightedPercentileSingleBucket(b: seq<nat>, step: real, percent: real, k: nat)
    requires k < |b| && 0.0 < step && 0.0 <= percent < 1.0
    requires b[k] > 0 && forall j | 0 <= j < |b| && j != k :: b[j] == 0
    ensures WeightedPercentile(b, step, percent) == Some((k as real + percent) * step)
  {
    var m := WeightedCounts(b, step);
    assert 0.0 < m[k] && forall j | 0 <= j < |m| && j != k :: m[j] == 0.0 by {
      WeightedCountsSign(b, step);
    }
    assert Total(m) == m[k] by {
      PrefixUpToSingle(m, k, |m|);
    }
    var target := Share(percent, m[k]);
    ShareBounds(percent, m[k]);
    InterpolatedSingle(m, step, target, k);
    assert WeightedPercentile(b, step, percent) == Interpolated(m, step, target);
    LerpFraction(k, percent, m[k], step);
  }

  /** With all the mass in bucket k, a target in [0, m[k]) is interpolated inside bucket k. */
  lemma InterpolatedSingle(m: seq<real>, step: real, target: real, k: nat)
    requires k < |m| && 0.0 <= target < m[k]
    requires forall j | 0 <= j < |m| && j != k :: m[j] == 0.0
    ensures Interpolated(m, step, target) == Some(Lerp(k, target, m[k], step))
  {
    var c := CrossingIndex(m, target);
    assert k <= c by {
      if c < k {
        PrefixUpToSingle(m, k, c + 1);
      }
    }
    assert c <= k by {
      if k < c {
        RunningAtSingle(m, k);
      }
    }
    RunningAtSingle(m, k);
    PrefixUpToSingle(m, k, k);
    assert Crossed(m, target);
    assert target - Prefix(m, k) == target;
  }

  /** Interpolating percent * w inside a bucket of mass w lands at k + percent. */
  lemma LerpFraction(k: nat, percent: real, w: real, step: real)
    requires w != 0.0
    ensures Lerp(k, Share(percent, w), w, step) == (k as real + percent) * step
  {
    assert Share(percent, w) / w == percent;
  }

  /** With one non-empty bucket k, the running total through k is m[k]. */
  lemma RunningAtSingle(m: seq<real>, k: nat)
    requires k < |m|
    requires forall i | 0 <= i < |m| && i != k :: m[i] == 0.0
    ensures Running(m, k) == m[k]
  {
    PrefixUpToSingle(m, k, k + 1);
  }

  /** 0 <= percent < 1 puts percent * t in [0, t) for t > 0. */
  lemma ShareBounds(percent: real, t: real)
    requires 0.0 <= percent < 1.0 && 0.0 < t
    ensures 0.0 <= Share(percent, t) < t
  {
    Histograms.MulMonotone(0.0, percent, t);
    Histograms.MulStrictMonotone(percent, 1.0, t);
  }

  /** With one non-empty bucket k, a running total is 0 before k and m[k] from k + 1 on. */
  lemma {:induction false} PrefixUpToSingle(m: seq<real>, k: nat, j: nat)
    requires k < |m| && j <= |m|
    requires forall i | 0 <= i < |m| && i != k :: m[i] == 0.0
    ensures Prefix(m, j) == if j <= k then 0.0 else m[k]
  {
    if j > 0 {
      PrefixUpToSingle(m, k, j - 1);
    }
  }

  /**
   * At percent = 1 with a positive total, no running total exceeds the target: the walk
   * ends on the last bucket with the whole total added, so the estimate is the LOWER
   * edge of the last bucket, or non-finite when that bucket is empty.
   */
  lemma WeightedPercentileAtOne(b: seq<nat>, step: real)
    requires |b| > 0 && 0.0 < step
    requires 0.0 < Total(WeightedCounts(b, step))
    ensures var m := WeightedCounts(b, step);
      && !Crossed(m, Share(1.0, Total(m)))
      && CrossingIndex(m, Share(1.0, Total(m))) == |b| - 1
    ensures WeightedPercentile(b, step, 1.0)
            == if b[|b| - 1] == 0 then None else Some((|b| - 1) as real * step)
  {
    var m := WeightedCounts(b, step);
    var total := Total(m);
    assert Share(1.0, total) == total;
    WeightedCountsSign(b, step);
    var k := CrossingIndex(m, total);
    PrefixMonotone(m, k + 1, |m|);
    if k < |m| - 1 {
      assert false;
    }
    assert Running(m, k) == total;
    if b[k] != 0 {
      assert (total - total) / m[k] == 0.0;
    }
  }

  /** The centre of gravity is undefined exactly when every bucket is empty. */
  lemma CenterOfGravityDefined(b: seq<nat>, step: real)
    requires 0.0 < step
    ensures CenterOfGravity(b, step).None? <==> forall i | 0 <= i < |b| :: b[i] == 0
  {
    var m := WeightedCounts(b, step);
    WeightedCountsSign(b, step);
    PrefixZero(m, |m|);
  }

  /** A running total of non-negative masses is zero exactly when each mass is. */
  lemma {:induction false} PrefixZero(m: seq<real>, k: nat)
    requires NonNegative(m) && k <= |m|
    ensures Prefix(m, k) == 0.0 <==> forall i | 0 <= i < k :: m[i] == 0.0
  {
    if k > 0 {
      PrefixZero(m, k - 1);
      PrefixNonNegative(m, k - 1);
    }
  }

  /**
   * The centre of gravity lies between the midpoints of the first and the last bucket,
   * that is inside the histogram's range.
   */
  lemma CenterOfGravityBounds(b: seq<nat>, step: real)
    requires |b| > 0 && 0.0 < step
    requires CenterOfGravity(b, step).Some?
    ensures Weight(0, step) <= CenterOfGravity(b, step).value <= Weight(|b| - 1, step)
  {
    var m, mo, ws := WeightedCounts(b, step), Moments(b, step), Weights(|b|, step);
    var lo, hi := Weight(0, step), Weight(|b| - 1, step);
    assert NonNegative(m) by {
      WeightedCountsSign(b, step);
    }
    assert 0.0 < Total(m) by {
      PrefixNonNegative(m, |m|);
    }
    WeightsBetween(|b|, step);
    assert forall i | 0 <= i < |m| :: mo[i] == m[i] * ws[i];
    MassBounds(m, ws, mo, lo, hi);
    RatioOfTotals(m, mo, lo, hi);
    assert CenterOfGravity(b, step).value == Total(mo) / Total(m);
  }

  /** The bucket midpoints 0..n-1. */
  function Weights(n: nat, step: real): (ws: seq<real>)
    ensures |ws| == n && forall i | 0 <= i < n :: ws[i] == Weight(i, step)
  {
    seq(n, i requires 0 <= i < n => Weight(i, step))
  }

  /** Every midpoint lies between the first and the last. */
  lemma WeightsBetween(n: nat, step: real)
    requires 0 < n && 0.0 <= step
    ensures forall i | 0 <= i < n :: Weight(0, step) <= Weights(n, step)[i] <= Weight(n - 1, step)
  {
    forall i | 0 <= i < n
      ensures Weight(0, step) <= Weight(i, step) <= Weight(n - 1, step)
    {
      WeightMonotone(0, i, step);
      WeightMonotone(i, n - 1, step);
    }
  }

  /** Non-negative masses m[i] carried at points ws[i] in [lo, hi]: lo * m[i] <= m[i] * ws[i] <= hi * m[i]. */
  lemma MassBounds(m: seq<real>, ws: seq<real>, mo: seq<real>, lo: real, hi: real)
    requires |m| == |ws| == |mo| && NonNegative(m)
    requires forall i | 0 <= i < |m| :: lo <= ws[i] <= hi
    requires forall i | 0 <= i < |m| :: mo[i] == m[i] * ws[i]
    ensures forall i | 0 <= i < |m| :: lo * m[i] <= mo[i] <= hi * m[i]
  {
    forall i | 0 <= i < |m|
      ensures lo * m[i] <= mo[i] <= hi * m[i]
    {
      BetweenProducts(lo, ws[i], hi, m[i]);
    }
  }

  /** Mass-by-mass bounds lo <= mo[i] / m[i] <= hi carry over to the ratio of the totals. */
  lemma RatioOfTotals(m: seq<real>, mo: seq<real>, lo: real, hi: real)
    requires |m| == |mo| && 0.0 < Total(m)
    requires forall i | 0 <= i < |m| :: lo * m[i] <= mo[i] <= hi * m[i]
    ensures lo <= Total(mo) / Total(m) <= hi
  {
    var num, den := Total(mo), Total(m);
    assert lo * den <= num by {
      PrefixAbove(m, mo, lo, |m|);
    }
    assert num <= hi * den by {
      PrefixBelow(m, mo, hi, |m|);
    }
    RatioBounds(num, den, lo, hi);
  }

  lemma BetweenProducts(lo: real, w: real, hi: real, c: real)
    requires lo <= w <= hi && 0.0 <= c
    ensures lo * c <= c * w <= hi * c
  {
    Histograms.MulMonotone(lo, w, c);
    Histograms.MulMonotone(w, hi, c);
  }

  /** A lower bound that holds mass by mass holds for the running totals. */
  lemma {:induction false} PrefixAbove(m: seq<real>, mo: seq<real>, lo: real, k: nat)
    requires |m| == |mo| && k <= |m|
    requires forall i | 0 <= i < |m| :: lo * m[i] <= mo[i]
    ensures lo * Prefix(m, k) <= Prefix(mo, k)
  {
    if k > 0 {
      PrefixAbove(m, mo, lo, k - 1);
      Distribute(lo, Prefix(m, k - 1), m[k - 1]);
      assert lo * m[k - 1] <= mo[k - 1];
    }
  }

  /** An upper bound that holds mass by mass holds for the running totals. */
  lemma {:induction false} PrefixBelow(m: seq<real>, mo: seq<real>, hi: real, k: nat)
    requires |m| == |mo| && k <= |m|
    requires forall i | 0 <= i < |m| :: mo[i] <= hi * m[i]
    ensures Prefix(mo, k) <= hi * Prefix(m, k)
  {
    if k > 0 {
      PrefixBelow(m, mo, hi, k - 1);
      Distribute(hi, Prefix(m, k - 1), m[k - 1]);
      assert mo[k - 1] <= hi * m[k - 1];
    }
  }

  lemma Distribute(a: real, x: real, y: real)
    ensures a * (x + y) == a * x + a * y
  {
  }

  lemma RatioBounds(num: real, den: real, lo: real, hi: real)
    requires 0.0 < den && lo * den <= num <= hi * den
    ensures lo <= num / den <= hi
  {
  }

  lemma DivideMonotone(x: real, y: real, c: real)
    requires x <= y && 0.0 < c
    ensures x / c <= y / c
  {
  }
}

=== FILE: commandline.dfy ===
/**
 * commandline: sorts the tokens of a command line into the command, the positional
 * arguments and, for each allowed option, the list of its values (each a unique_vector).
 * An option is allowed either as a flag or as taking an argument; the argument of the
 * latter is split on ',' into several values.
 */
module CommandLine {
  import opened UniqueVectors
  import opened Tokens

  /** allowedOptions: (name, whether the option takes an argument) pairs. */
  type AllowedOptions = set<(string, bool)>

  /** mOptions: each option's values, in the order they were first pushed. */
  type Options = map<string, seq<string>>

  /** The values stored for option o; none when o is not a key. */
  function Values(options: Options, o: string): seq<string> {
    if o in options then options[o] else []
  }

  /** Every option present has at least one value and holds no value twice. */
  ghost predicate WellFormed(options: Options) {
    forall o | o in options :: |options[o]| > 0 && Distinct(options[o])
  }

  /** Nothing is lost: every key of before is in after, its values a prefix of the new ones. */
  ghost predicate Extends(before: Options, after: Options) {
    forall o | o in before :: o in after && before[o] <= after[o]
  }

  lemma ExtendsTransitive(a: Options, b: Options, c: Options)
    requires Extends(a, b) && Extends(b, c)
    ensures Extends(a, c)
  {
  }

  /** mOptions[o].push_back(v): the entry is created when absent and v pushed onto it. */
  function Push(options: Options, o: string, v: string): (r: Options)
    ensures r.Keys == options.Keys + {o}
    ensures v in r[o]
  {
    options[o := PushUnique(Values(options, o), v)]
  }

  /**
   * A push changes no other option, loses no value, and keeps every option non-empty
   * and free of duplicates.
   */
  lemma PushKeeps(options: Options, o: string, v: string)
    ensures forall k | k in options && k != o :: Push(options, o, v)[k] == options[k]
    ensures Extends(options, Push(options, o, v))
    ensures WellFormed(options) ==> WellFormed(Push(options, o, v))
  {
  }

  /** The pieces ts pushed onto option o one after the other (nothing at all when there are none). */
  function PushTokens(options: Options, o: string, ts: seq<string>): Options {
    if ts == [] then options else options[o := PushAll(Values(options, o), ts)]
  }

  /**
   * Pushing pieces loses no value, keeps every option non-empty and free of duplicates,
   * and leaves every piece among the option's values.
   */
  lemma PushTokensKeeps(options: Options, o: string, ts: seq<string>)
    ensures Extends(options, PushTokens(options, o, ts))
    ensures WellFormed(options) ==> WellFormed(PushTokens(options, o, ts))
    ensures ts != [] ==> o in PushTokens(options, o, ts)
                         && forall t | t in ts :: t in PushTokens(options, o, ts)[o]
  {
    PushAllContents(Values(options, o), ts);
  }

  /** Pushing one more piece is one more push_back. */
  lemma PushTokensAppend(options: Options, o: string, ts: seq<string>, t: string)
    ensures PushTokens(options, o, ts + [t]) == Push(PushTokens(options, o, ts), o, t)
  {
    PushAllAppend(Values(options, o), ts, t);
    if ts == [] {
      assert PushAll(Values(options, o), [t]) == PushUnique(Values(options, o), t) by {
        PushAllAppend(Values(options, o), [], t);
      }
    }
  }

  /** The state of parse between two tokens: the results so far and the option pending. */
  datatype Parser = Parser(options: Options, arguments: seq<string>,
                           atOption: bool, optionHasArgument: bool, option: string)

  /** parse starts on what is already there, with no option pending. */
  function Begin(options: Options, arguments: seq<string>): Parser {
    Parser(options, arguments, false, false, "")
  }

  /** arg[0] == '-'; the empty token's arg[0] is the terminating '\0'. */
  predicate IsDash(arg: string) {
    |arg| > 0 && arg[0] == '-'
  }

  /**
   * One token of parse. A '-' token first gives a pending option "" as its value; its name
   * is then looked up as a flag, then as taking an argument, and otherwise the token is an
   * argument. Any other token is split on ',' into the values of a pending option that
   * takes an argument, and is an argument otherwise.
   */
  function Step(p: Parser, arg: string, allowed: AllowedOptions): Parser {
    if IsDash(arg) then
      var options := if p.atOption then Push(p.options, p.option, "") else p.options;
      var name := arg[1..];
      if (name, false) in allowed then
        p.(options := options, atOption := true, option := name)
      else if (name, true) in allowed then
        p.(options := options, atOption := true, optionHasArgument := true, option := name)
      else
        p.(options := options, atOption := false, arguments := p.arguments + [arg])
    else if p.atOption && p.optionHasArgument then
      p.(options := PushTokens(p.options, p.option, Split(arg)),
         atOption := false, optionHasArgument := false)
    else
      p.(arguments := p.arguments + [arg])
  }

  /**
   * One token adds at most itself to the arguments, loses no option value, and keeps
   * every option non-empty and free of duplicates.
   */
  lemma StepKeeps(p: Parser, arg: string, allowed: AllowedOptions)
    ensures var r := Step(p, arg, allowed);
      && p.arguments <= r.arguments && |r.arguments| <= |p.arguments| + 1
      && Extends(p.options, r.options)
      && (WellFormed(p.options) ==> WellFormed(r.options))
  {
    if IsDash(arg) {
      if p.atOption {
        PushKeeps(p.options, p.option, "");
      }
    } else if p.atOption && p.optionHasArgument {
      PushTokensKeeps(p.options, p.option, Split(arg));
    }
  }

  /** The tokens handled in order. */
  function Run(p: Parser, args: seq<string>, allowed: AllowedOptions): Parser {
    if args == [] then p
    else Step(Run(p, args[..|args| - 1], allowed), args[|args| - 1], allowed)
  }

  /**
   * The whole run adds at most one argument per token, keeping the old ones first, loses
   * no option value, and keeps every option non-empty and free of duplicates.
   */
  lemma {:induction false} RunKeeps(p: Parser, args: seq<string>, allowed: AllowedOptions)
    ensures var r := Run(p, args, allowed);
      && p.arguments <= r.arguments && |r.arguments| <= |p.arguments| + |args|
      && Extends(p.options, r.options)
      && (WellFormed(p.options) ==> WellFormed(r.options))
  {
    if args != [] {
      var init := args[..|args| - 1];
      var q := Run(p, init, allowed);
      RunKeeps(p, init, allowed);
      StepKeeps(q, args[|args| - 1], allowed);
      ExtendsTransitive(p.options, q.options, Run(p, args, allowed).options);
    }
  }

  /** After the last token an option still pending gets "" as its value. */
  function Finish(p: Parser): (r: Options)
    ensures p.atOption ==> p.option in r && "" in r[p.option]
    ensures !p.atOption ==> r == p.options
  {
    if p.atOption then Push(p.options, p.option, "") else p.options
  }

  /** Finishing loses no value and keeps every option non-empty and free of duplicates. */
  lemma FinishKeeps(p: Parser)
    ensures Extends(p.options, Finish(p))
    ensures WellFormed(p.options) ==> WellFormed(Finish(p))
  {
    if p.atOption {
      PushKeeps(p.options, p.option, "");
    }
  }

  lemma RunAppend(p: Parser, args: seq<string>, arg: string, allowed: AllowedOptions)
    ensures Run(p, args + [arg], allowed) == Step(Run(p, args, allowed), arg, allowed)
  {
    assert (args + [arg])[..|args|] == args;
  }

  /**
   * A '-' token whose name is allowed in neither form is kept, dash and all, as the next
   * argument, and no option is pending after it.
   */
  lemma UnknownDashIsArgument(p: Parser, arg: string, allowed: AllowedOptions)
    requires IsDash(arg)
    requires (arg[1..], false) !in allowed && (arg[1..], true) !in allowed
    ensures Step(p, arg, allowed).arguments == p.arguments + [arg]
    ensures !Step(p, arg, allowed).atOption
  {
  }

  /**
   * A token after an option that takes an argument is split on ',' and every piece is
   * pushed onto that option's values in order; no option is pending afterwards.
   */
  lemma ValueSplitOnCommas(p: Parser, arg: string, allowed: AllowedOptions)
    requires !IsDash(arg) && p.atOption && p.optionHasArgument
    ensures var r := Step(p, arg, allowed);
      && r.options == p.options[p.option := PushAll(Values(p.options, p.option), Split(arg))]
      && r.arguments == p.arguments
      && !r.atOption && !r.optionHasArgument
    ensures forall t | t in Split(arg) :: t in Step(p, arg, allowed).options[p.option]
  {
    PushTokensKeeps(p.options, p.option, Split(arg));
  }

  /** A '-' token that arrives while an option is pending gives that option the value "". */
  lemma PendingOptionGetsEmpty(p: Parser, arg: string, allowed: AllowedOptions)
    requires IsDash(arg) && p.atOption
    ensures var r := Step(p, arg, allowed); p.option in r.options && "" in r.options[p.option]
  {
  }

  /**
   * A flag makes itself the pending option without resetting optionHasArgument: after
   * an argument-taking option, a flag receives the next token as its value.
   */
  lemma FlagKeepsArgumentMode(p: Parser, arg: string, allowed: AllowedOptions)
    requires IsDash(arg) && (arg[1..], false) in allowed
    ensures var r := Step(p, arg, allowed);
      r.atOption && r.option == arg[1..] && r.optionHasArgument == p.optionHasArgument
  {
  }

  /**
   * A token after a flag (with no argument pending) is an argument, and the flag stays
   * pending, so it still gets "" later.
   */
  lemma TokenAfterFlagIsArgument(p: Parser, arg: string, allowed: AllowedOptions)
    requires !IsDash(arg) && p.atOption && !p.optionHasArgument
    ensures var r := Step(p, arg, allowed);
      r.arguments == p.arguments + [arg] && r.options == p.options && r.atOption && r.option == p.option
  {
  }

  /** With no options allowed every token is an argument, in order, and no option is set. */
  lemma {:induction false} NoOptionsAllowed(options: Options, arguments: seq<string>, args: seq<string>)
    ensures Run(Begin(options, arguments), args, {}) == Begin(options, arguments + args)
  {
    if args != [] {
      var init := args[..|args| - 1];
      NoOptionsAllowed(options, arguments, init);
      assert arguments + init + [args[|args| - 1]] == arguments + args;
    }
  }

  /** `-a -f x` with a taking an argument and f a flag: a gets "", and x goes to f. */
  lemma FlagAfterArgumentOptionTakesValue()
    ensures var allowed := {("a", true), ("f", false)};
      var r := Run(Begin(map[], []), ["-a", "-f", "x"], allowed);
      Finish(r) == map["a" := [""], "f" := ["x"]] && r.arguments == []
  {
    var allowed := {("a", true), ("f", false)};
    var p0 := Begin(map[], []);
    var p1 := Step(p0, "-a", allowed);
    assert ("-a")[1..] == "a";
    assert p1 == Parser(map[], [], true, true, "a");
    var p2 := Step(p1, "-f", allowed);
    assert ("-f")[1..] == "f";
    assert PushUnique([], "") == [""];
    assert Push(map[], "a", "") == map["a" := [""]];
    assert p2 == Parser(map["a" := [""]], [], true, true, "f");
    var p3 := Step(p2, "x", allowed);
    assert Split("x") == ["x"];
    assert PushAll([], ["x"]) == ["x"] by {
      PushAllAppend([], [], "x");
      assert [] + ["x"] == ["x"];
    }
    assert p3 == Parser(map["a" := [""], "f" := ["x"]], [], false, false, "f");
    RunAppend(p0, ["-a", "-f"], "x", allowed);
    RunAppend(p0, ["-a"], "-f", allowed);
    RunAppend(p0, [], "-a", allowed);
    assert ["-a", "-f", "x"] == ["-a", "-f"] + ["x"];
    assert ["-a", "-f"] == ["-a"] + ["-f"];
    assert ["-a"] == [] + ["-a"];
  }

  /**
   * The comma loop of parse on the option's values: while the token holds a ',', push
   * the piece before it and erase through it; then push what is left.
   */
  method PushValues(values: seq<string>, arg: string) returns (r: seq<string>)
    ensures r == PushAll(values, Split(arg))
  {
    r := values;
    ghost var pushed: seq<string> := [];
    var rest := arg;
    var pos := Find(rest, ',');
    while pos.Some?
      invariant Split(arg) == pushed + Split(rest)
      invariant r == PushAll(values, pushed)
      invariant pos == Find(rest, ',')
      decreases |rest|
    {
      var token, after := rest[..pos.value], rest[pos.value + 1..];
      SplitAdvance(arg, pushed, rest, pos.value);
      PushAllAppend(values, pushed, token);
      r := PushUnique(r, token);
      rest := after;
      pushed := pushed + [token];
      pos := Find(rest, ',');
    }
    assert Split(arg) == pushed + [rest];
    PushAllAppend(values, pushed, rest);
    r := PushUnique(r, rest);
    assert r == PushAll(values, pushed + [rest]);
  }

  /** The extraction loop of parse(commandLine, ...): every word >> reads until the stream fails. */
  method ReadWords(commandLine: string) returns (words: seq<string>)
    ensures words == Words(commandLine)
  {
    words := [];
    var position := 0;
    var next := Extract(commandLine, position);
    while next.Some?
      invariant position <= |commandLine|
      invariant next == Extract(commandLine, position)
      invariant words + WordsFrom(commandLine, position) == Words(commandLine)
      decreases |commandLine| - position
    {
      WordsAdvance(commandLine, words, position);
      words := words + [next.value.0];
      position := next.value.1;
      next := Extract(commandLine, position);
    }
    assert WordsFrom(commandLine, position) == [];
  }

  class CommandLine {
    /** mCommand */
    var command: string
    /** mOptions */
    var options: Options
    /** mArguments */
    var arguments: seq<string>

    ghost predicate Valid()
      reads this
    {
      WellFormed(options)
    }

    /** commandline(): empty. */
    constructor ()
      ensures Valid() && command == "" && options == map[] && arguments == []
    {
      command, options, arguments := "", map[], [];
    }

    /** commandline(argc, argv, allowedOptions): clear, then parse. */
    constructor FromArgs(argv: seq<string>, allowed: AllowedOptions)
      requires |argv| > 0
      ensures Valid() && command == argv[0]
      ensures var r := Run(Begin(map[], []), argv[1..], allowed);
        options == Finish(r) && arguments == r.arguments
    {
      command, options, arguments := "", map[], [];
      new;
      var _ := Parse(argv, allowed);
    }

    /** commandline(commandLine, allowedOptions): clear, then parse the words. */
    constructor FromLine(commandLine: string, allowed: AllowedOptions)
      requires |Words(commandLine)| > 0
      ensures Valid() && command == Words(commandLine)[0]
      ensures var r := Run(Begin(map[], []), Words(commandLine)[1..], allowed);
        options == Finish(r) && arguments == r.arguments
    {
      command, options, arguments := "", map[], [];
      new;
      var _ := ParseLine(commandLine, allowed);
    }

    /** clear: no command, no options, no arguments. */
    method Clear()
      modifies this
      ensures Valid() && command == "" && options == map[] && arguments == []
    {
      command := "";
      options := map[];
      arguments := [];
    }

    /**
     * parse(argc, argv, allowedOptions): argv[0] is the command; the other tokens are
     * handled in order by Step and the pending option finished, on top of what is already
     * stored (parse does not clear). It always returns true.
     */
    method Parse(argv: seq<string>, allowed: AllowedOptions) returns (ok: bool)
      requires |argv| > 0
      modifies this
      ensures ok && command == argv[0]
      ensures var r := Run(Begin(old(options), old(arguments)), argv[1..], allowed);
        options == Finish(r) && arguments == r.arguments
      ensures old(Valid()) ==> Valid()
    {
      ghost var start := Begin(options, arguments);
      command := argv[0];

      var atOption := false;
      var optionHasArgument := false;
      var tOption := "";
      var i := 1;
      while i < |argv|
        invariant 1 <= i <= |argv| && command == argv[0]
        invariant Parser(options, arguments, atOption, optionHasArgument, tOption)
                  == Run(start, argv[1..i], allowed)
      {
        atOption, optionHasArgument, tOption := ParseArgument(argv[i], allowed, atOption, optionHasArgument, tOption);
        assert argv[1..i + 1] == argv[1..i] + [argv[i]];
        RunAppend(start, argv[1..i], argv[i], allowed);
        i := i + 1;
      }
      assert argv[1..i] == argv[1..];
      ghost var last := Parser(options, arguments, atOption, optionHasArgument, tOption);
      RunKeeps(start, argv[1..], allowed);
      FinishKeeps(last);
      if atOption {
        options := Push(options, tOption, "");
      }
      ok := true;
    }

    /**
     * One pass of parse's loop over argv: the parser state is the two fields and the
     * three locals, passed in and returned here.
     */
    method ParseArgument(arg: string, allowed: AllowedOptions, atOption: bool, optionHasArgument: bool, option: string)
      returns (atOption': bool, optionHasArgument': bool, option': string)
      modifies this
      ensures command == old(command)
      ensures Parser(options, arguments, atOption', optionHasArgument', option')
              == Step(Parser(old(options), old(arguments), atOption, optionHasArgument, option), arg, allowed)
    {
      atOption', optionHasArgument', option' := atOption, optionHasArgument, option;
      if |arg| > 0 && arg[0] == '-' {
        if atOption' {
          options := Push(options, option', "");
        }

        if (arg[1..], false) in allowed {
          atOption' := true;
          option' := arg[1..];
        } else if (arg[1..], true) in allowed {
          atOption' := true;
          optionHasArgument' := true;
          option' := arg[1..];
        } else {
          atOption' := false;
          arguments := arguments + [arg];
        }
      } else {
        if atOption' && optionHasArgument' {
          var values := PushValues(Values(options, option'), arg);
          options := options[option' := values];
          atOption' := false;
          optionHasArgument' := false;
        } else {
          arguments := arguments + [arg];
        }
      }
    }

    /**
     * parse(commandLine, allowedOptions): extracts the words with >> until the stream
     * fails and parses them as argv, so the first word is the command.
     */
    method ParseLine(commandLine: string, allowed: AllowedOptions) returns (ok: bool)
      requires |Words(commandLine)| > 0
      modifies this
      ensures ok && command == Words(commandLine)[0]
      ensures var r := Run(Begin(old(options), old(arguments)), Words(commandLine)[1..], allowed);
        options == Finish(r) && arguments == r.arguments
      ensures old(Valid()) ==> Valid()
    {
      var words := ReadWords(commandLine);
      ok := Parse(words, allowed);
    }

    /** getArgument: the argument at index, which must exist. */
    function GetArgument(index: nat): (arg: string)
      reads this
      requires index < |arguments|
      ensures arg == arguments[index] && arg in arguments
    {
      arguments[index]
    }

    /** getOptionValues: the option's values, none when it is not set; never a duplicate. */
    function GetOptionValues(option: string): (values: seq<string>)
      reads this
      ensures values == Values(options, option)
      ensures Valid() ==> Distinct(values) && (|values| > 0 <==> option in options)
    {
      if option !in options then [] else options[option]
    }

    /** getNumOptionValues: how many values the option has; zero exactly when it is not set. */
    function GetNumOptionValues(option: string): (n: nat)
      reads this
      ensures n == |GetOptionValues(option)|
      ensures Valid() ==> (n == 0 <==> option !in options)
    {
      |GetOptionValues(option)|
    }

    /** optionSet: whether the option is a key; for a valid object, whether it has a value. */
    function OptionSet(option: string): (isSet: bool)
      reads this
      ensures isSet <==> option in options
      ensures Valid() ==> (isSet <==> GetNumOptionValues(option) > 0)
    {
      option in options
    }

    /** getOption: value index of the option, or "" when there is no such value. */
    function GetOption(option: string, index: nat): (value: string)
      reads this
      ensures index < GetNumOptionValues(option) ==> value == GetOptionValues(option)[index]
      ensures GetNumOptionValues(option) <= index ==> value == ""
    {
      var values := GetOptionValues(option);
      if index < |values| then values[index] else ""
    }

    /** getOptionValue: the first value of the option, or "" when it is not set. */
    function GetOptionValue(option: string): (value: string)
      reads this
      requires Valid()
      ensures value == GetOption(option, 0)
      ensures !OptionSet(option) ==> value == ""
    {
      if option !in options then "" else options[option][0]
    }
  }
}

=== FILE: common.dfy ===
/** Limits of the C++ types the source relies on. */
module Limits {
  /** std::string::npos, the largest size_t (64-bit), used as a "not found" index. */
  const NPOS: nat := 0xFFFF_FFFF_FFFF_FFFF

  /** std::numeric_limits<double>::max(), exactly: (2^53 - 1) * 2^971. */
  const DBL_MAX: real := 179769313486231570814527423731704356798070567525844996598917476803157260780028538760589558632766878171540458953514382464234321326889464182768467546703537516986049910576551282076245490090389328944075868508455133942304583236903222948165808559332123348274797826204144723168738177180919299881250404026184124858368.0

  /** std::numeric_limits<double>::min(), exactly: 2^-1022, the smallest POSITIVE normal double. */
  const DBL_MIN: real := 2225073858507201383090232717332404064219215980462331830553327416887204434813918195854283159012511020564067339731035811005152434161553460108856012385377718821130777993532002330479610147442583636071921565046942503734208375250806650616658158948720491179968591639648500635908770118304874799780887753749949451580451605050915399856582470818645113537935804992115981085766051992433352114352390148795699609591288891602992641511063466313393663477586513029371762047325631781485664350872122828637642044846811407613911477062801689853244110024161447421618567166150540154285084716752901903161322778896729707373123334086988983175067838846926092773977972858659654941091369095406136467568702398678315290680984617210924625396728515625e-1022

  /** Exact reals have no truncation: C++ size_t(x) for a non-negative double x is x.Floor. */
  function TruncToSize(x: real): (n: nat)
    requires 0.0 <= x
    ensures n as real <= x < n as real + 1.0
  {
    x.Floor
  }
}

/** The usual optional value; each use says what None stands for. */
module Optional {
  datatype Option<+T> = None | Some(value: T)
}

=== FILE: histogram.dfy ===
/**
 * The fixed-bucket histogram of pooling.h (class `histogram`).
 *
 * Counters are size_t in the source; here they are unbounded `nat`s. Values are
 * exact reals. The model covers the only geometry the program builds:
 * minimum 0, a positive maximum and a positive bucket count.
 */
module Histograms {
  import opened Limits

  /** Sum of the first k counters. */
  function PrefixCount(s: seq<nat>, k: nat): nat
    requires k <= |s|
  {
    if k == 0 then 0 else PrefixCount(s, k - 1) + s[k - 1]
  }

  /** Sum of all counters. */
  function Sum(s: seq<nat>): nat {
    PrefixCount(s, |s|)
  }

  /** std::vector<size_t>::resize(n, fill): keeps the first n elements, pads with fill. */
  function VectorResize(v: seq<nat>, n: nat, fill: nat): (r: seq<nat>)
    ensures |r| == n
    ensures forall i | 0 <= i < n :: r[i] == (if i < |v| then v[i] else fill)
  {
    if n <= |v| then v[..n] else v + seq(n - |v|, _ => fill)
  }

  /** Resizing to the current size, whatever the fill value, changes nothing. */
  lemma VectorResizeSameSize(v: seq<nat>, fill: nat)
    ensures VectorResize(v, |v|, fill) == v
  {
  }

  /** Adding `amount` to one counter adds `amount` to every prefix sum that covers it. */
  lemma {:induction false} PrefixCountBump(s: seq<nat>, id: nat, amount: nat, k: nat)
    requires id < |s| && k <= |s|
    ensures PrefixCount(s[id := s[id] + amount], k)
            == PrefixCount(s, k) + (if id < k then amount else 0)
  {
    if k > 0 {
      PrefixCountBump(s, id, amount, k - 1);
    }
  }

  /** A prefix sum is zero exactly when every counter it covers is zero. */
  lemma {:induction false} PrefixCountZero(s: seq<nat>, k: nat)
    requires k <= |s|
    ensures PrefixCount(s, k) == 0 <==> forall i | 0 <= i < k :: s[i] == 0
  {
    if k > 0 {
      PrefixCountZero(s, k - 1);
    }
  }

  /** count buckets of the given size exactly cover the width. */
  ghost predicate Fits(size: real, count: nat, width: real) {
    size * count as real == width
  }

  class Histogram {
    var minValue: real
    var maxValue: real
    var valueCount: nat
    var errorValueCount: nat
    var bucketSize: real
    var buckets: seq<nat>
    /** mBucketIdRange[0] and mBucketIdRange[1]. */
    var bucketIdMin: nat
    var bucketIdMax: nat
    /** Total `amount` passed to Inc since the last Init (or construction). */
    ghost var total: nat

    /** The geometry the program builds: [0, maxValue] split into |buckets| equal buckets. */
    ghost predicate Valid()
      reads this
    {
      && minValue == 0.0 < maxValue
      && 0 < |buckets| < NPOS
      && Fits(bucketSize, |buckets|, maxValue - minValue)
    }

    /** Every counted amount is either in a bucket or in the error counter. */
    ghost predicate Balanced()
      reads this
    {
      Sum(buckets) == valueCount && valueCount + errorValueCount == total
    }

    /** The used-bucket range is the npos/0 pair or a real range covering every non-empty bucket. */
    ghost predicate RangeTracked()
      reads this
    {
      && (if bucketIdMin == NPOS then bucketIdMax == 0 else bucketIdMin <= bucketIdMax < |buckets|)
      && forall i | 0 <= i < |buckets| && buckets[i] > 0 :: bucketIdMin <= i <= bucketIdMax
    }

    /** histogram(buckets, minValue, maxValue): runs init on an empty vector. */
    constructor (count: nat, minV: real, maxV: real)
      requires 0 < count < NPOS
      requires minV == 0.0 < maxV
      ensures Valid() && Balanced() && RangeTracked()
      ensures minValue == minV && maxValue == maxV
      ensures buckets == seq(count, _ => 0)
      ensures valueCount == 0 && errorValueCount == 0 && total == 0
      ensures bucketIdMin == NPOS && bucketIdMax == 0
    {
      minValue, maxValue := minV, maxV;
      valueCount, errorValueCount := 0, 0;
      bucketIdMin, bucketIdMax := NPOS, 0;
      bucketSize := (maxV - minV) / count as real;
      SizeTimesCount(maxV - minV, count);
      buckets := VectorResize([], count, 0);
      total := 0;
      new;
      PrefixCountZero(buckets, |buckets|);
    }

    /**
     * init: resets the counters and the range and resizes to `count` buckets. The
     * first resize pads with zeros, so the second one (with `value`) never has an
     * effect, and counters of buckets that already existed are kept.
     */
    method Init(count: nat, minV: real, maxV: real, value: nat)
      requires 0 < count < NPOS
      requires minV == 0.0 < maxV
      modifies this
      ensures Valid()
      ensures minValue == minV && maxValue == maxV
      ensures valueCount == 0 && errorValueCount == 0 && total == 0
      ensures bucketIdMin == NPOS && bucketIdMax == 0
      ensures buckets == VectorResize(old(buckets), count, 0)
      ensures old(Sum(buckets)) == 0 ==> Balanced() && RangeTracked()
    {
      minValue := minV;
      maxValue := maxV;
      valueCount := 0;
      errorValueCount := 0;
      bucketIdMin := NPOS;
      bucketIdMax := 0;
      total := 0;
      Resize(count);
      VectorResizeSameSize(buckets, value);
      buckets := VectorResize(buckets, count, value);
      if old(Sum(buckets)) == 0 {
        PrefixCountZero(old(buckets), |old(buckets)|);
        PrefixCountZero(buckets, |buckets|);
      }
    }

    /** resize: new bucket size and count; counters of surviving buckets are kept, new ones are 0. */
    method Resize(count: nat)
      requires 0 < count < NPOS
      requires minValue == 0.0 < maxValue
      modifies this
      ensures Valid()
      ensures bucketSize == (maxValue - minValue) / count as real
      ensures buckets == VectorResize(old(buckets), count, 0)
      ensures minValue == old(minValue) && maxValue == old(maxValue)
      ensures valueCount == old(valueCount) && errorValueCount == old(errorValueCount)
      ensures bucketIdMin == old(bucketIdMin) && bucketIdMax == old(bucketIdMax) && total == old(total)
      ensures old(Sum(buckets) == 0 && bucketIdMin == NPOS && bucketIdMax == 0) ==> Sum(buckets) == 0 && RangeTracked()
    {
      bucketSize := (maxValue - minValue) / count as real;
      SizeTimesCount(maxValue - minValue, count);
      buckets := VectorResize(buckets, count, 0);
      if old(Sum(buckets) == 0 && bucketIdMin == NPOS && bucketIdMax == 0) {
        PrefixCountZero(old(buckets), |old(buckets)|);
        PrefixCountZero(buckets, |buckets|);
      }
    }

    /**
     * clear: resizes the vector to its own size, so it changes nothing at all;
     * in particular it neither zeroes the counters nor resets the range.
     */
    method Clear(value: nat)
      modifies this
      ensures unchanged(this)
    {
      VectorResizeSameSize(buckets, value);
      buckets := VectorResize(buckets, |buckets|, value);
    }

    /** getBucketStep: recomputed from the range; agrees with the stored bucket size. */
    function GetBucketStep(): (step: real)
      reads this
      requires Valid()
      ensures 0.0 < step && step == bucketSize
      ensures step * |buckets| as real == maxValue - minValue
    {
      SizeFromProduct(maxValue - minValue, |buckets|, bucketSize);
      (maxValue - minValue) / |buckets| as real
    }

    /**
     * valueBucketId: npos outside [minValue, maxValue]; otherwise trunc(value / bucketSize),
     * with the index equal to the bucket count (value == maxValue) moved to the last bucket.
     */
    function ValueBucketId(value: real): (id: nat)
      reads this
      requires Valid()
      ensures id == NPOS <==> value < minValue || value > maxValue
      ensures id != NPOS ==> id < |buckets|
    {
      if value < minValue || value > maxValue then NPOS
      else
        BucketIndexFacts(value, maxValue, |buckets|, bucketSize);
        var b := TruncToSize(value / bucketSize);
        if b == |buckets| then b - 1 else b
    }

    /**
     * A value inside the range lies in the bucket valueBucketId gives it:
     * [id * bucketSize, (id + 1) * bucketSize), or it is maxValue itself in the last bucket.
     */
    lemma ValueInBucket(value: real)
      requires Valid() && minValue <= value <= maxValue
      ensures var id := ValueBucketId(value);
        && id as real * bucketSize <= value
        && (value < (id + 1) as real * bucketSize || (id == |buckets| - 1 && value == maxValue))
    {
      BucketIndexFacts(value, maxValue, |buckets|, bucketSize);
    }

    /**
     * inc: a value inside the range adds `amount` to its bucket and to the valid-value
     * counter and widens the used range; any other value adds `amount` to the error counter.
     */
    method Inc(value: real, amount: nat)
      requires Valid()
      modifies this
      ensures Valid()
      ensures minValue == old(minValue) && maxValue == old(maxValue) && bucketSize == old(bucketSize)
      ensures total == old(total) + amount
      ensures var id := old(ValueBucketId(value));
        if id != NPOS then
          && buckets == old(buckets)[id := old(buckets)[id] + amount]
          && valueCount == old(valueCount) + amount
          && errorValueCount == old(errorValueCount)
          && bucketIdMin == (if old(bucketIdMin) <= id then old(bucketIdMin) else id)
          && bucketIdMax == (if old(bucketIdMax) >= id then old(bucketIdMax) else id)
        else
          && buckets == old(buckets)
          && valueCount == old(valueCount)
          && errorValueCount == old(errorValueCount) + amount
          && bucketIdMin == old(bucketIdMin) && bucketIdMax == old(bucketIdMax)
      ensures old(Balanced()) ==> Balanced()
      ensures old(RangeTracked()) ==> RangeTracked()
      ensures old(ValueBucketId(value)) != NPOS ==> bucketIdMin <= old(ValueBucketId(value)) <= bucketIdMax
    {
      var bucketId := ValueBucketId(value);
      if bucketId != NPOS {
        PrefixCountBump(buckets, bucketId, amount, |buckets|);
        buckets := buckets[bucketId := buckets[bucketId] + amount];
        assert |buckets| == |old(buckets)|;
        valueCount := valueCount + amount;
        bucketIdMin := if bucketIdMin <= bucketId then bucketIdMin else bucketId;
        bucketIdMax := if bucketIdMax >= bucketId then bucketIdMax else bucketId;
      } else {
        errorValueCount := errorValueCount + amount;
      }
      total := total + amount;
    }
  }

  /** The width over the bucket count, times the count, is the width again. */
  lemma SizeTimesCount(width: real, count: nat)
    requires 0 < count
    ensures (width / count as real) * count as real == width
  {
  }

  /** A size that fits count times into the width is the width over the count. */
  lemma SizeFromProduct(width: real, count: nat, size: real)
    requires 0 < count && size * count as real == width
    ensures size == width / count as real
    ensures 0.0 < width ==> 0.0 < size
  {
  }

  /**
   * With minimum 0, truncating value / size for a value in [0, maxV] gives an index b
   * in [0, count] whose bucket [b * size, (b + 1) * size) holds the value; b == count
   * only for value == maxV.
   */
  lemma BucketIndexFacts(value: real, maxV: real, count: nat, size: real)
    requires 0.0 <= value <= maxV && 0.0 < maxV && 0 < count && size * count as real == maxV
    ensures 0.0 < size && 0.0 <= value / size
    ensures var b := (value / size).Floor;
      && 0 <= b <= count
      && b as real * size <= value < (b + 1) as real * size
      && (b == count ==> value == maxV)
  {
    SizeFromProduct(maxV, count, size);
    QuotientTimes(value, size);
    var b := (value / size).Floor;
    FloorBracket(value, size);
    if b > count {
      MulMonotone((count + 1) as real, b as real, size);
      NextBucketStart(count, size);
      assert false;
    }
  }

  /** Truncating v / size to b puts v inside bucket b: [b * size, (b + 1) * size). */
  lemma FloorBracket(v: real, size: real)
    requires 0.0 < size
    ensures var b := (v / size).Floor; b as real * size <= v < (b + 1) as real * size
  {
    var q := v / size;
    QuotientTimes(v, size);
    var b := q.Floor;
    var r := b as real;
    assert r <= q < r + 1.0;
    MulMonotone(r, q, size);
    MulStrictMonotone(q, r + 1.0, size);
    NextBucketStart(b, size);
    calc {
      v;
    ==
      q * size;
    <
      (r + 1.0) * size;
    ==
      (b + 1) as real * size;
    }
  }

  /** The start of bucket b + 1 is one bucket width past the start of bucket b. */
  lemma NextBucketStart(b: int, size: real)
    ensures (b + 1) as real * size == b as real * size + size
    ensures (b + 1) as real * size == (b as real + 1.0) * size
  {
  }

  lemma QuotientTimes(v: real, size: real)
    requires 0.0 < size
    ensures (v / size) * size == v
    ensures 0.0 <= v ==> 0.0 <= v / size
  {
  }

  lemma MulMonotone(x: real, y: real, c: real)
    requires x <= y && 0.0 <= c
    ensures x * c <= y * c
  {
  }

  lemma MulStrictMonotone(x: real, y: real, c: real)
    requires x < y && 0.0 < c
    ensures x * c < y * c
  {
  }
}

=== FILE: moments.dfy ===
/**
 * Running moments of a sequence of observed values: the sum, the sum of squares
 * and the squared deviation from a centre, with the identities that make the
 * aggregator's one-pass mean and variance correct under exact arithmetic.
 */
module Moments {

  function Sum(xs: seq<real>): real {
    if xs == [] then 0.0 else Sum(xs[..|xs| - 1]) + xs[|xs| - 1]
  }

  function Square(x: real): real {
    x * x
  }

  function SumSquares(xs: seq<real>): real {
    if xs == [] then 0.0 else SumSquares(xs[..|xs| - 1]) + Square(xs[|xs| - 1])
  }

  /** The sum of (x - c)^2 over the values. */
  function SquaredDeviation(xs: seq<real>, c: real): real {
    if xs == [] then 0.0
    else SquaredDeviation(xs[..|xs| - 1], c) + Square(xs[|xs| - 1] - c)
  }

  /** Appending a value adds it to the sum and its square to the sum of squares. */
  lemma SumAppend(xs: seq<real>, x: real)
    ensures Sum(xs + [x]) == Sum(xs) + x
    ensures SumSquares(xs + [x]) == SumSquares(xs) + Square(x)
  {
    assert (xs + [x])[..|xs|] == xs;
  }

  /** sum x^2 - 2 c sum x + n c^2, from the count, the sum and the sum of squares. */
  function ExpandedDeviation(count: nat, sum: real, sumSquares: real, c: real): real {
    sumSquares - 2.0 * c * sum + count as real * (c * c)
  }

  /** The one-pass identity: sum (x - c)^2 == sum x^2 - 2 c sum x + n c^2. */
  lemma {:induction false} SquaredDeviationExpand(xs: seq<real>, c: real)
    ensures SquaredDeviation(xs, c) == ExpandedDeviation(|xs|, Sum(xs), SumSquares(xs), c)
  {
    if xs != [] {
      var init, x := xs[..|xs| - 1], xs[|xs| - 1];
      SquaredDeviationExpand(init, c);
      var si, qi := Sum(init), SumSquares(init);
      assert Sum(xs) == si + x;
      assert SumSquares(xs) == qi + Square(x);
      assert SquaredDeviation(xs, c) == SquaredDeviation(init, c) + Square(x - c);
      ExpandStep(qi, si, |init|, x, c);
    }
  }

  /** Appending one value x adds (x - c)^2 to the expanded form. */
  lemma ExpandStep(q: real, s: real, k: nat, x: real, c: real)
    ensures ExpandedDeviation(k, s, q, c) + Square(x - c)
            == ExpandedDeviation(k + 1, s + x, q + Square(x), c)
  {
    SquareOfDifference(x, c);
    DistributeOne(k as real, c * c);
    Distribute(c, s, x);
  }

  lemma SquareOfDifference(x: real, c: real)
    ensures (x - c) * (x - c) == x * x - 2.0 * c * x + c * c
  {
  }

  lemma Distribute(c: real, a: real, b: real)
    ensures 2.0 * c * (a + b) == 2.0 * c * a + 2.0 * c * b
  {
  }

  lemma DistributeOne(k: real, d: real)
    ensures (k + 1.0) * d == k * d + d
  {
  }

  lemma SquareNonNegative(d: real)
    ensures 0.0 <= d * d
  {
    if d < 0.0 {
      assert d * d == (-d) * (-d);
    }
  }

  lemma {:induction false} SquaredDeviationNonNegative(xs: seq<real>, c: real)
    ensures 0.0 <= SquaredDeviation(xs, c)
  {
    if xs != [] {
      SquaredDeviationNonNegative(xs[..|xs| - 1], c);
      SquareNonNegative(xs[|xs| - 1] - c);
      assert Square(xs[|xs| - 1] - c) >= 0.0;
    }
  }

  /** The aggregator's one-pass variance formula on its running totals, before the clamp at zero. */
  function VarianceFormula(count: nat, sum: real, sumSquares: real): real
    requires 0 < count
  {
    (sumSquares - sum * sum / count as real) / count as real
  }

  /**
   * Fed with the totals of the observed values, the one-pass formula is the population
   * variance (the mean squared deviation from the mean), and so it is never negative.
   */
  lemma PopulationVariance(xs: seq<real>)
    requires |xs| > 0
    ensures var n := |xs| as real;
      VarianceFormula(|xs|, Sum(xs), SumSquares(xs)) == SquaredDeviation(xs, Sum(xs) / n) / n
    ensures 0.0 <= VarianceFormula(|xs|, Sum(xs), SumSquares(xs))
  {
    var n := |xs| as real;
    var s, q := Sum(xs), SumSquares(xs);
    var m := s / n;
    var d := SquaredDeviation(xs, m);
    SquaredDeviationExpand(xs, m);
    SquaredDeviationNonNegative(xs, m);
    VarianceAlgebra(q, s, |xs|, m, d);
  }

  /** Dividing the expanded squared deviation about the mean by n gives the one-pass formula. */
  lemma VarianceAlgebra(q: real, s: real, count: nat, m: real, d: real)
    requires 0 < count && 0.0 <= d && m == s / count as real
    requires d == ExpandedDeviation(count, s, q, m)
    ensures VarianceFormula(count, s, q) == d / count as real
    ensures 0.0 <= VarianceFormula(count, s, q)
  {
    var n := count as real;
    MeanIdentity(s, n);
    assert d == q - s * s / n;
    DivideNonNegative(d, n);
  }

  /** 2 m s - n m^2 == s^2 / n for the mean m = s / n. */
  lemma MeanIdentity(s: real, n: real)
    requires 0.0 < n
    ensures 2.0 * (s / n) * s - n * ((s / n) * (s / n)) == s * s / n
  {
    var m := s / n;
    assert n * m == s;
    assert n * (m * m) == s * m;
    assert s * m == s * s / n;
  }

  lemma DivideNonNegative(a: real, n: real)
    requires 0.0 <= a && 0.0 < n
    ensures 0.0 <= a / n
  {
  }

  /** If every value is above c, so is their average. */
  lemma {:induction false} SumAbove(xs: seq<real>, c: real)
    requires |xs| > 0
    requires forall i | 0 <= i < |xs| :: c < xs[i]
    ensures |xs| as real * c < Sum(xs)
  {
    if |xs| > 1 {
      SumAbove(xs[..|xs| - 1], c);
    }
  }

  /** If every value is below c, so is their average. */
  lemma {:induction false} SumBelow(xs: seq<real>, c: real)
    requires |xs| > 0
    requires forall i | 0 <= i < |xs| :: xs[i] < c
    ensures Sum(xs) < |xs| as real * c
  {
    if |xs| > 1 {
      SumBelow(xs[..|xs| - 1], c);
    }
  }

  /** The mean lies between the smallest and the largest value. */
  lemma MeanBetweenValues(xs: seq<real>)
    requires |xs| > 0
    ensures exists i | 0 <= i < |xs| :: xs[i] <= Sum(xs) / |xs| as real
    ensures exists j | 0 <= j < |xs| :: Sum(xs) / |xs| as real <= xs[j]
  {
    var mean := Sum(xs) / |xs| as real;
    assert |xs| as real * mean == Sum(xs);
    if forall i | 0 <= i < |xs| :: mean < xs[i] {
      SumAbove(xs, mean);
    }
    if forall j | 0 <= j < |xs| :: xs[j] < mean {
      SumBelow(xs, mean);
    }
  }
}

=== FILE: pooling.dfy ===
/**
 * The statistics aggregator of pooling.h (class `pooling`): a count, a running sum and
 * sum of squares, the strict extrema with the coordinates where they occurred, and a
 * histogram of the values, from which percentiles and the centre of gravity are read.
 *
 * The ghost sequence `values` holds every value passed to Update since the last Clear;
 * the invariant ties the running totals and the extrema to it.
 */
module Pools {
  import opened Limits
  import opened Optional
  import Histograms
  import Moments
  import Binned

  newtype uint32 = x: int | 0 <= x < 0x1_0000_0000

  /** A pixel position (mMinCoord / mMaxCoord). */
  datatype Coord = Coord(x: uint32, y: uint32)

  /**
   * The minimum as update tracks it from `start`: a value replaces it only when it is
   * strictly smaller.
   */
  function Lowest(start: real, xs: seq<real>): real {
    if xs == [] then start
    else
      var r := Lowest(start, xs[..|xs| - 1]);
      if xs[|xs| - 1] < r then xs[|xs| - 1] else r
  }

  /** The maximum as update tracks it from `start`: replaced only by a strictly larger value. */
  function Highest(start: real, xs: seq<real>): real {
    if xs == [] then start
    else
      var r := Highest(start, xs[..|xs| - 1]);
      if xs[|xs| - 1] > r then xs[|xs| - 1] else r
  }

  /** Where the tracked minimum was last replaced, or -1 when it never was. */
  function LowestAt(start: real, xs: seq<real>): (k: int)
    ensures -1 <= k < |xs|
  {
    if xs == [] then -1
    else
      var init := xs[..|xs| - 1];
      if xs[|xs| - 1] < Lowest(start, init) then |xs| - 1 else LowestAt(start, init)
  }

  /** Where the tracked maximum was last replaced, or -1 when it never was. */
  function HighestAt(start: real, xs: seq<real>): (k: int)
    ensures -1 <= k < |xs|
  {
    if xs == [] then -1
    else
      var init := xs[..|xs| - 1];
      if xs[|xs| - 1] > Highest(start, init) then |xs| - 1 else HighestAt(start, init)
  }

  /**
   * The tracked minimum is the least of start and the values, and it is start itself
   * or one of the values.
   */
  lemma {:induction false} LowestIsMinimum(start: real, xs: seq<real>)
    ensures Lowest(start, xs) <= start
    ensures forall i | 0 <= i < |xs| :: Lowest(start, xs) <= xs[i]
    ensures Lowest(start, xs) == start || exists i | 0 <= i < |xs| :: Lowest(start, xs) == xs[i]
  {
    if xs != [] {
      var init := xs[..|xs| - 1];
      LowestIsMinimum(start, init);
      assert forall i | 0 <= i < |init| :: init[i] == xs[i];
    }
  }

  /** The tracked maximum is the greatest of start and the values, and it is start or a value. */
  lemma {:induction false} HighestIsMaximum(start: real, xs: seq<real>)
    ensures start <= Highest(start, xs)
    ensures forall i | 0 <= i < |xs| :: xs[i] <= Highest(start, xs)
    ensures Highest(start, xs) == start || exists i | 0 <= i < |xs| :: Highest(start, xs) == xs[i]
  {
    if xs != [] {
      var init := xs[..|xs| - 1];
      HighestIsMaximum(start, init);
      assert forall i | 0 <= i < |init| :: init[i] == xs[i];
    }
  }

  /**
   * No position is recorded exactly when no value is below start; otherwise the recorded
   * position holds the minimum and is its FIRST occurrence: every earlier value is larger.
   */
  lemma {:induction false} LowestAtFirst(start: real, xs: seq<real>)
    ensures LowestAt(start, xs) == -1 <==> forall i | 0 <= i < |xs| :: start <= xs[i]
    ensures var k := LowestAt(start, xs);
      k >= 0 ==> xs[k] == Lowest(start, xs) < start && forall j | 0 <= j < k :: xs[k] < xs[j]
  {
    if xs != [] {
      var init := xs[..|xs| - 1];
      LowestAtFirst(start, init);
      LowestIsMinimum(start, init);
      assert forall i | 0 <= i < |init| :: init[i] == xs[i];
    }
  }

  /**
   * No position is recorded exactly when no value is above start; otherwise the recorded
   * position holds the maximum and is its FIRST occurrence: every earlier value is smaller.
   */
  lemma {:induction false} HighestAtFirst(start: real, xs: seq<real>)
    ensures HighestAt(start, xs) == -1 <==> forall i | 0 <= i < |xs| :: xs[i] <= start
    ensures var k := HighestAt(start, xs);
      k >= 0 ==> xs[k] == Highest(start, xs) > start && forall j | 0 <= j < k :: xs[j] < xs[k]
  {
    if xs != [] {
      var init := xs[..|xs| - 1];
      HighestAtFirst(start, init);
      HighestIsMaximum(start, init);
      assert forall i | 0 <= i < |init| :: init[i] == xs[i];
    }
  }

  /** The coordinate recorded for position k, or the one kept from before when k is -1. */
  function CoordAt(coords: seq<Coord>, k: int, kept: Option<Coord>): Option<Coord>
    requires -1 <= k < |coords|
  {
    if k == -1 then kept else Some(coords[k])
  }

  /** The count and the running sums agree with the values. */
  ghost predicate Totals(values: seq<real>, count: nat, sum: real, squareSum: real) {
    && count == |values|
    && sum == Moments.Sum(values)
    && squareSum == Moments.SumSquares(values)
  }

  /**
   * The minimum is the one update tracks from DBL_MAX, and its coordinate is the one
   * recorded with it, or the one kept from before when no value went below DBL_MAX.
   */
  ghost predicate MinTracked(values: seq<real>, coords: seq<Coord>, minValue: real,
                             minCoord: Option<Coord>, kept: Option<Coord>)
    requires |coords| == |values|
  {
    && minValue == Lowest(DBL_MAX, values)
    && minCoord == CoordAt(coords, LowestAt(DBL_MAX, values), kept)
  }

  /** As MinTracked, for the maximum tracked from DBL_MIN. */
  ghost predicate MaxTracked(values: seq<real>, coords: seq<Coord>, maxValue: real,
                             maxCoord: Option<Coord>, kept: Option<Coord>)
    requires |coords| == |values|
  {
    && maxValue == Highest(DBL_MIN, values)
    && maxCoord == CoordAt(coords, HighestAt(DBL_MIN, values), kept)
  }

  lemma TotalsAppend(values: seq<real>, count: nat, sum: real, squareSum: real, value: real)
    requires Totals(values, count, sum, squareSum)
    ensures Totals(values + [value], count + 1, sum + value, squareSum + Moments.Square(value))
  {
    Moments.SumAppend(values, value);
  }

  lemma MinTrackedAppend(values: seq<real>, coords: seq<Coord>, minValue: real,
                         minCoord: Option<Coord>, kept: Option<Coord>, value: real, c: Coord)
    requires |coords| == |values| && MinTracked(values, coords, minValue, minCoord, kept)
    ensures MinTracked(values + [value], coords + [c],
                       if value < minValue then value else minValue,
                       if value < minValue then Some(c) else minCoord, kept)
  {
    LowestAppend(DBL_MAX, values, value);
    CoordAtAppend(coords, LowestAt(DBL_MAX, values), kept, c);
  }

  lemma MaxTrackedAppend(values: seq<real>, coords: seq<Coord>, maxValue: real,
                         maxCoord: Option<Coord>, kept: Option<Coord>, value: real, c: Coord)
    requires |coords| == |values| && MaxTracked(values, coords, maxValue, maxCoord, kept)
    ensures MaxTracked(values + [value], coords + [c],
                       if value > maxValue then value else maxValue,
                       if value > maxValue then Some(c) else maxCoord, kept)
  {
    HighestAppend(DBL_MIN, values, value);
    CoordAtAppend(coords, HighestAt(DBL_MIN, values), kept, c);
  }

  /** The aggregator's running state: the fields update changes. */
  datatype Stats = Stats(count: nat, sum: real, squareSum: real,
                         minValue: real, maxValue: real,
                         minCoord: Option<Coord>, maxCoord: Option<Coord>)

  /** The state right after clear: no values, extrema at DBL_MAX and DBL_MIN, coordinates kept. */
  function Start(minCoord: Option<Coord>, maxCoord: Option<Coord>): Stats {
    Stats(0, 0.0, 0.0, DBL_MAX, DBL_MIN, minCoord, maxCoord)
  }

  /**
   * update on the running state: count it, add it and its square, and make it the new
   * minimum (maximum), with its coordinate, only when strictly below (above) the current one.
   */
  function Step(s: Stats, c: Coord, value: real): Stats {
    var lower, upper := value < s.minValue, value > s.maxValue;
    Stats(s.count + 1, s.sum + value, s.squareSum + Moments.Square(value),
          if lower then value else s.minValue, if upper then value else s.maxValue,
          if lower then Some(c) else s.minCoord, if upper then Some(c) else s.maxCoord)
  }

  /** The state after updating s with each value and its coordinate in turn. */
  function Fold(s: Stats, xs: seq<real>, cs: seq<Coord>): Stats
    requires |cs| == |xs|
  {
    if xs == [] then s else Step(Fold(s, xs[..|xs| - 1], cs[..|cs| - 1]), cs[|cs| - 1], xs[|xs| - 1])
  }

  lemma FoldAppend(s: Stats, xs: seq<real>, cs: seq<Coord>, x: real, c: Coord)
    requires |cs| == |xs|
    ensures Fold(s, xs + [x], cs + [c]) == Step(Fold(s, xs, cs), c, x)
  {
    assert (xs + [x])[..|xs|] == xs;
    assert (cs + [c])[..|cs|] == cs;
  }

  /** Folding update over values from the cleared state counts them and sums them and their squares. */
  lemma {:induction false} FoldTotals(minCoord: Option<Coord>, maxCoord: Option<Coord>,
                                      xs: seq<real>, cs: seq<Coord>)
    requires |cs| == |xs|
    ensures var r := Fold(Start(minCoord, maxCoord), xs, cs);
      Totals(xs, r.count, r.sum, r.squareSum)
  {
    if xs != [] {
      var init, cinit, x := xs[..|xs| - 1], cs[..|cs| - 1], xs[|xs| - 1];
      FoldTotals(minCoord, maxCoord, init, cinit);
      var r := Fold(Start(minCoord, maxCoord), init, cinit);
      TotalsAppend(init, r.count, r.sum, r.squareSum, x);
      assert init + [x] == xs;
    }
  }

  /**
   * Folding update over values from the cleared state leaves as minimum the value Lowest
   * describes, with the coordinate at its position (or the one kept from before).
   */
  lemma {:induction false} FoldMinTracked(minCoord: Option<Coord>, maxCoord: Option<Coord>,
                                          xs: seq<real>, cs: seq<Coord>)
    requires |cs| == |xs|
    ensures var r := Fold(Start(minCoord, maxCoord), xs, cs);
      MinTracked(xs, cs, r.minValue, r.minCoord, minCoord)
  {
    if xs != [] {
      var init, cinit, x, c := xs[..|xs| - 1], cs[..|cs| - 1], xs[|xs| - 1], cs[|cs| - 1];
      FoldMinTracked(minCoord, maxCoord, init, cinit);
      var r := Fold(Start(minCoord, maxCoord), init, cinit);
      MinTrackedAppend(init, cinit, r.minValue, r.minCoord, minCoord, x, c);
      assert init + [x] == xs && cinit + [c] == cs;
    }
  }

  /**
   * Folding update over values from the cleared state leaves as maximum the value Highest
   * describes, with the coordinate at its position (or the one kept from before).
   */
  lemma {:induction false} FoldMaxTracked(minCoord: Option<Coord>, maxCoord: Option<Coord>,
                                          xs: seq<real>, cs: seq<Coord>)
    requires |cs| == |xs|
    ensures var r := Fold(Start(minCoord, maxCoord), xs, cs);
      MaxTracked(xs, cs, r.maxValue, r.maxCoord, maxCoord)
  {
    if xs != [] {
      var init, cinit, x, c := xs[..|xs| - 1], cs[..|cs| - 1], xs[|xs| - 1], cs[|cs| - 1];
      FoldMaxTracked(minCoord, maxCoord, init, cinit);
      var r := Fold(Start(minCoord, maxCoord), init, cinit);
      MaxTrackedAppend(init, cinit, r.maxValue, r.maxCoord, maxCoord, x, c);
      assert init + [x] == xs && cinit + [c] == cs;
    }
  }

  class Pooling {
    /** mHistogram, owned by value in the source. */
    const hist: Histograms.Histogram
    var valueCount: nat
    var valueSum: real
    var squareValueSum: real
    var minValue: real
    var maxValue: real
    /** None stands for the coordinate the source leaves uninitialised. */
    var minCoord: Option<Coord>
    var maxCoord: Option<Coord>

    /** The values and their positions passed to Update since the last Clear. */
    ghost var values: seq<real>
    ghost var coords: seq<Coord>
    /** The histogram's total at the last Clear, which Clear does not reset. */
    ghost var histBase: nat
    /** The coordinates at the last Clear, which Clear does not reset either. */
    ghost var minCoordBase: Option<Coord>
    ghost var maxCoordBase: Option<Coord>

    ghost predicate Valid()
      reads this, hist
    {
      && hist.Valid() && hist.Balanced() && hist.RangeTracked()
      && hist.total == histBase + valueCount
      && Tracks()
    }

    /** The fields update changes, as one value. */
    function State(): Stats
      reads this
    {
      Stats(valueCount, valueSum, squareValueSum, minValue, maxValue, minCoord, maxCoord)
    }

    /** The state is update folded over the values since the last clear. */
    ghost predicate Tracks()
      reads this
    {
      && |coords| == |values|
      && State() == Fold(Start(minCoordBase, maxCoordBase), values, coords)
    }

    /** pooling(): a 100-bucket histogram over [0, 1], then clear. */
    constructor ()
      ensures Valid() && fresh(hist)
      ensures values == [] && valueCount == 0
      ensures minValue == DBL_MAX && maxValue == DBL_MIN
      ensures minCoord == None && maxCoord == None
      ensures |hist.buckets| == 100 && hist.minValue == 0.0 && hist.maxValue == 1.0
      ensures hist.total == 0 && Histograms.Sum(hist.buckets) == 0
      ensures hist.valueCount == 0 && hist.errorValueCount == 0
      ensures hist.bucketIdMin == NPOS && hist.bucketIdMax == 0
    {
      hist := new Histograms.Histogram(100, 0.0, 1.0);
      valueCount, valueSum, squareValueSum := 0, 0.0, 0.0;
      minValue, maxValue := DBL_MAX, DBL_MIN;
      minCoord, maxCoord := None, None;
      values, coords := [], [];
      histBase := 0;
      minCoordBase, maxCoordBase := None, None;
      new;
      hist.Clear(0);
    }

    /** pooling(buckets): the default histogram resized to `buckets`, then clear. */
    constructor WithBuckets(buckets: nat)
      requires 0 < buckets < NPOS
      ensures Valid() && fresh(hist)
      ensures values == [] && valueCount == 0
      ensures minValue == DBL_MAX && maxValue == DBL_MIN
      ensures minCoord == None && maxCoord == None
      ensures |hist.buckets| == buckets && hist.minValue == 0.0 && hist.maxValue == 1.0
      ensures hist.total == 0 && Histograms.Sum(hist.buckets) == 0
      ensures hist.valueCount == 0 && hist.errorValueCount == 0
      ensures hist.bucketIdMin == NPOS && hist.bucketIdMax == 0
    {
      var h := new Histograms.Histogram(100, 0.0, 1.0);
      h.Resize(buckets);
      hist := h;
      valueCount, valueSum, squareValueSum := 0, 0.0, 0.0;
      minValue, maxValue := DBL_MAX, DBL_MIN;
      minCoord, maxCoord := None, None;
      values, coords := [], [];
      histBase := 0;
      minCoordBase, maxCoordBase := None, None;
      new;
      hist.Clear(0);
    }

    /**
     * clear: resets the count, the sums and the extrema (the maximum to DBL_MIN, the
     * smallest positive normal double, 2^-1022). The histogram's clear changes nothing, and the
     * coordinates are not reset.
     */
    method Clear()
      requires Valid()
      modifies this, hist
      ensures Valid()
      ensures values == [] && valueCount == 0 && valueSum == 0.0 && squareValueSum == 0.0
      ensures minValue == DBL_MAX && maxValue == DBL_MIN
      ensures minCoord == old(minCoord) && maxCoord == old(maxCoord)
      ensures unchanged(hist)
    {
      Reset();
      hist.Clear(0);
    }

    /** The part of clear that does not touch the histogram: the count, the sums and the extrema. */
    method Reset()
      modifies this
      ensures State() == Start(minCoordBase, maxCoordBase) && values == [] && coords == []
      ensures values == [] && valueCount == 0 && valueSum == 0.0 && squareValueSum == 0.0
      ensures minValue == DBL_MAX && maxValue == DBL_MIN
      ensures minCoord == old(minCoord) && maxCoord == old(maxCoord)
      ensures histBase == hist.total
    {
      valueCount := 0;
      valueSum := 0.0;
      squareValueSum := 0.0;
      minValue := DBL_MAX;
      maxValue := DBL_MIN;
      values, coords := [], [];
      histBase := hist.total;
      minCoordBase, maxCoordBase := minCoord, maxCoord;
    }

    /**
     * update: counts the value, adds it and its square to the sums, passes it to the
     * histogram whether or not it is in range, and records it with its coordinate as the
     * new minimum (maximum) only when it is strictly below (above) the current one.
     */
    method Update(x: uint32, y: uint32, value: real)
      requires Valid()
      modifies this, hist
      ensures Valid()
      ensures values == old(values) + [value] && coords == old(coords) + [Coord(x, y)]
      ensures valueCount == old(valueCount) + 1
      ensures valueSum == old(valueSum) + value
      ensures squareValueSum == old(squareValueSum) + Moments.Square(value)
      ensures hist.total == old(hist.total) + 1
      ensures hist.minValue == old(hist.minValue) && hist.maxValue == old(hist.maxValue)
      ensures hist.bucketSize == old(hist.bucketSize)
      ensures var id := old(hist.ValueBucketId(value));
        if id != NPOS then
          && hist.buckets == old(hist.buckets)[id := old(hist.buckets)[id] + 1]
          && hist.valueCount == old(hist.valueCount) + 1
          && hist.errorValueCount == old(hist.errorValueCount)
          && hist.bucketIdMin == (if old(hist.bucketIdMin) <= id then old(hist.bucketIdMin) else id)
          && hist.bucketIdMax == (if old(hist.bucketIdMax) >= id then old(hist.bucketIdMax) else id)
        else
          && hist.buckets == old(hist.buckets)
          && hist.valueCount == old(hist.valueCount)
          && hist.errorValueCount == old(hist.errorValueCount) + 1
          && hist.bucketIdMin == old(hist.bucketIdMin) && hist.bucketIdMax == old(hist.bucketIdMax)
      ensures if value < old(minValue) then minValue == value && minCoord == Some(Coord(x, y))
              else minValue == old(minValue) && minCoord == old(minCoord)
      ensures if value > old(maxValue) then maxValue == value && maxCoord == Some(Coord(x, y))
              else maxValue == old(maxValue) && maxCoord == old(maxCoord)
    {
      ghost var start := Start(minCoordBase, maxCoordBase);
      FoldAppend(start, values, coords, value, Coord(x, y));
      Accumulate(x, y, value);
      hist.Inc(value, 1);
    }

    /**
     * The part of update that does not touch the histogram: the count and the sums, then
     * the strict extrema. The histogram does not depend on these fields, so calling inc
     * after them rather than between them changes nothing.
     */
    method Accumulate(x: uint32, y: uint32, value: real)
      modifies this
      ensures State() == Step(old(State()), Coord(x, y), value)
      ensures values == old(values) + [value] && coords == old(coords) + [Coord(x, y)]
      ensures histBase == old(histBase)
      ensures minCoordBase == old(minCoordBase) && maxCoordBase == old(maxCoordBase)
    {
      valueCount := valueCount + 1;
      valueSum := valueSum + value;
      squareValueSum := squareValueSum + Moments.Square(value);

      if value < minValue {
        minValue := value;
        minCoord := Some(Coord(x, y));
      }

      if value > maxValue {
        maxValue := value;
        maxCoord := Some(Coord(x, y));
      }

      values, coords := values + [value], coords + [Coord(x, y)];
    }

    /**
     * getMinValue: the strict running minimum from DBL_MAX. It is at most every value seen
     * since clear, and it is one of them unless none was below DBL_MAX.
     */
    function GetMinValue(): (v: real)
      reads this, hist
      requires Valid()
      ensures v == Lowest(DBL_MAX, values)
      ensures v <= DBL_MAX && forall i | 0 <= i < |values| :: v <= values[i]
      ensures v == DBL_MAX || exists i | 0 <= i < |values| :: v == values[i]
    {
      FoldMinTracked(minCoordBase, maxCoordBase, values, coords);
      LowestIsMinimum(DBL_MAX, values);
      minValue
    }

    /**
     * getMaxValue: the strict running maximum from DBL_MIN. It is at least every value seen
     * since clear, and it is one of them unless none was above DBL_MIN.
     */
    function GetMaxValue(): (v: real)
      reads this, hist
      requires Valid()
      ensures v == Highest(DBL_MIN, values)
      ensures DBL_MIN <= v && forall i | 0 <= i < |values| :: values[i] <= v
      ensures v == DBL_MIN || exists i | 0 <= i < |values| :: v == values[i]
    {
      FoldMaxTracked(minCoordBase, maxCoordBase, values, coords);
      HighestIsMaximum(DBL_MIN, values);
      maxValue
    }

    /** getMean: the running sum over the count, the mean of the values seen since clear. */
    function GetMean(): (mean: real)
      reads this, hist
      requires Valid() && valueCount > 0
      ensures mean == Moments.Sum(values) / |values| as real
      ensures exists i | 0 <= i < |values| :: values[i] <= mean
      ensures exists j | 0 <= j < |values| :: mean <= values[j]
    {
      FoldTotals(minCoordBase, maxCoordBase, values, coords);
      Moments.MeanBetweenValues(values);
      valueSum / valueCount as real
    }

    /**
     * getVariance: the one-pass formula clamped at zero. Under exact arithmetic the
     * clamp never acts: the result is the population variance of the values.
     */
    function GetVariance(): (variance: real)
      reads this, hist
      requires Valid() && valueCount > 0
      ensures 0.0 <= variance
      ensures variance == Moments.SquaredDeviation(values, GetMean()) / |values| as real
    {
      FoldTotals(minCoordBase, maxCoordBase, values, coords);
      Moments.PopulationVariance(values);
      var v := Moments.VarianceFormula(valueCount, valueSum, squareValueSum);
      if 0.0 < v then v else 0.0
    }

    /**
     * getPercentile: walks the counters until the running count exceeds
     * size_t(percent * numCounts) and returns the midpoint of that bucket (or of the last).
     */
    method GetPercentile(percent: real, numCounts: nat) returns (percentile: real)
      requires Valid() && 0.0 <= percent
      ensures percentile == Binned.Percentile(hist.buckets, hist.GetBucketStep(), percent, numCounts)
    {
      var b := hist.buckets;
      var m := Binned.Counts(b);
      var threshold := Binned.Threshold(percent, numCounts);
      var sum: nat := 0;
      var medianIndex: nat := 0;
      var bucketId: nat := 0;
      while bucketId < |b|
        invariant bucketId <= |b|
        invariant sum == Histograms.PrefixCount(b, bucketId)
        invariant forall j | 0 <= j < bucketId :: Binned.Running(m, j) <= threshold as real
        invariant bucketId > 0 ==> medianIndex == bucketId - 1
      {
        var count := b[bucketId];
        medianIndex := bucketId;
        Binned.PrefixCounts(b, bucketId + 1);
        if sum + count > threshold {
          break;
        }
        sum := sum + count;
        bucketId := bucketId + 1;
      }
      Binned.CrossingIndexUnique(m, threshold as real, medianIndex);
      var bucketStep := hist.GetBucketStep();
      percentile := Binned.Weight(medianIndex, bucketStep);
    }

    /**
     * getWeightedPercentile: sums count * midpoint over all buckets, walks those masses
     * until the running mass exceeds percent times the sum, and interpolates inside the
     * bucket where it stopped. None stands for the non-finite result of dividing by an
     * empty bucket's zero mass.
     */
    method GetWeightedPercentile(percent: real) returns (percentile: Option<real>)
      requires Valid()
      ensures percentile == Binned.WeightedPercentile(hist.buckets, hist.GetBucketStep(), percent)
    {
      var b := hist.buckets;
      var bucketStep := hist.GetBucketStep();
      ghost var m := Binned.WeightedCounts(b, bucketStep);
      var weight: real;
      var weightedValue: real;
      var sumWeightedDataValue := 0.0;
      var bucketId: nat := 0;
      while bucketId < |b|
        invariant bucketId <= |b|
        invariant sumWeightedDataValue == Binned.Prefix(m, bucketId)
      {
        weight := Binned.Weight(bucketId, bucketStep);
        weightedValue := Binned.Scale(b[bucketId], weight);
        assert m[bucketId] == weightedValue;
        sumWeightedDataValue := sumWeightedDataValue + weightedValue;
        bucketId := bucketId + 1;
      }
      var target := Binned.Share(percent, sumWeightedDataValue);

      var sum := 0.0;
      var weightedMedianIndex: nat := 0;
      ghost var crossed := false;
      bucketId := 0;
      while bucketId < |b|
        invariant bucketId <= |b|
        invariant sum == Binned.Prefix(m, bucketId)
        invariant forall j | 0 <= j < bucketId :: Binned.Running(m, j) <= target
        invariant bucketId > 0 ==> weightedMedianIndex == bucketId - 1
        invariant !crossed
      {
        weight := Binned.Weight(bucketId, bucketStep);
        weightedValue := Binned.Scale(b[bucketId], weight);
        assert m[bucketId] == weightedValue;
        weightedMedianIndex := bucketId;
        if sum + weightedValue > target {
          crossed := true;
          break;
        }
        sum := sum + weightedValue;
        bucketId := bucketId + 1;
      }
      assert target == Binned.Share(percent, Binned.Total(m));
      Binned.WalkInterpolates(m, bucketStep, target, weightedMedianIndex, sum, crossed);

      weight := Binned.Weight(weightedMedianIndex, bucketStep);
      weightedValue := Binned.Scale(b[weightedMedianIndex], weight);
      assert m[weightedMedianIndex] == weightedValue;
      var discrepancy := target - sum;
      if weightedValue == 0.0 {
        percentile := None;
      } else {
        percentile := Some(Binned.Lerp(weightedMedianIndex, discrepancy, weightedValue, bucketStep));
      }
    }

    /**
     * getCenterOfGravity: sum of count * w^2 over sum of count * w, with w the bucket
     * midpoints. None stands for the non-finite 0 / 0 of an empty histogram.
     */
    method GetCenterOfGravity() returns (cog: Option<real>)
      requires Valid()
      ensures cog == Binned.CenterOfGravity(hist.buckets, hist.GetBucketStep())
    {
      var b := hist.buckets;
      var bucketStep := hist.GetBucketStep();
      ghost var m := Binned.WeightedCounts(b, bucketStep);
      ghost var mo := Binned.Moments(b, bucketStep);
      var sumMoments := 0.0;
      var sumWeightedDataValue := 0.0;
      var bucketId: nat := 0;
      while bucketId < |b|
        invariant bucketId <= |b|
        invariant sumWeightedDataValue == Binned.Prefix(m, bucketId)
        invariant sumMoments == Binned.Prefix(mo, bucketId)
      {
        var weight := Binned.Weight(bucketId, bucketStep);
        var weightedValue := Binned.Scale(b[bucketId], weight);
        assert m[bucketId] == weightedValue && mo[bucketId] == Binned.Moment(weightedValue, weight);
        sumWeightedDataValue := sumWeightedDataValue + weightedValue;
        sumMoments := sumMoments + Binned.Moment(weightedValue, weight);
        bucketId := bucketId + 1;
      }
      if sumWeightedDataValue == 0.0 {
        cog := None;
      } else {
        cog := Some(sumMoments / sumWeightedDataValue);
      }
    }
  }

  /** Appending x: the tracked minimum and its position move to x exactly when x is below it. */
  lemma LowestAppend(start: real, xs: seq<real>, x: real)
    ensures Lowest(start, xs + [x]) == if x < Lowest(start, xs) then x else Lowest(start, xs)
    ensures LowestAt(start, xs + [x]) == if x < Lowest(start, xs) then |xs| else LowestAt(start, xs)
  {
    assert (xs + [x])[..|xs|] == xs;
  }

  /** Appending x: the tracked maximum and its position move to x exactly when x is above it. */
  lemma HighestAppend(start: real, xs: seq<real>, x: real)
    ensures Highest(start, xs + [x]) == if x > Highest(start, xs) then x else Highest(start, xs)
    ensures HighestAt(start, xs + [x]) == if x > Highest(start, xs) then |xs| else HighestAt(start, xs)
  {
    assert (xs + [x])[..|xs|] == xs;
  }

  lemma CoordAtAppend(cs: seq<Coord>, k: int, kept: Option<Coord>, c: Coord)
    requires -1 <= k < |cs|
    ensures CoordAt(cs + [c], k, kept) == CoordAt(cs, k, kept)
    ensures CoordAt(cs + [c], |cs|, kept) == Some(c)
  {
  }

  /**
   * After clear the maximum starts at DBL_MIN, the smallest positive normal double
   * (2^-1022): values that are all at most DBL_MIN (zero, negatives, positive subnormals) never become the maximum, and no
   * maximum coordinate is recorded for them.
   */
  lemma {:induction false} SmallValuesNeverMaximum(xs: seq<real>)
    requires forall i | 0 <= i < |xs| :: xs[i] <= DBL_MIN
    ensures Highest(DBL_MIN, xs) == DBL_MIN && HighestAt(DBL_MIN, xs) == -1
  {
    if xs != [] {
      SmallValuesNeverMaximum(xs[..|xs| - 1]);
    }
  }
}

=== FILE: tokens.dfy ===
/**
 * The two ways the command line is cut into pieces: the values of an argument-taking
 * option are split on ',', and a whole command line given as one string is split into
 * words on whitespace, the way extraction with >> from a std::stringstream does.
 */
module Tokens {
  import opened Optional

  /** std::string::find of one character: a position holding c; None stands for npos. */
  function Find(s: string, c: char): (r: Option<nat>)
    ensures r.Some? ==> r.value < |s| && s[r.value] == c
  {
    if s == [] then None
    else if s[0] == c then Some(0)
    else match Find(s[1..], c)
      case None => None
      case Some(p) => Some(p + 1)
  }

  /** find gives the first position holding c, and npos exactly when there is none. */
  lemma {:induction false} FindFirst(s: string, c: char)
    ensures Find(s, c).Some? ==> c !in s[..Find(s, c).value]
    ensures Find(s, c).None? <==> c !in s
  {
    if s != [] && s[0] != c {
      FindFirst(s[1..], c);
      if Find(s[1..], c).Some? {
        var p := Find(s[1..], c).value;
        assert s[..p + 1] == [s[0]] + s[1..][..p];
      } else {
        assert s == [s[0]] + s[1..];
      }
    }
  }

  /**
   * The comma loop of parse: the piece before each ',' in turn, then what is left once no
   * ',' remains. There is always at least one piece.
   */
  function Split(s: string): (r: seq<string>)
    ensures |r| > 0
    decreases |s|
  {
    match Find(s, ',')
    case None => [s]
    case Some(p) => [s[..p]] + Split(s[p + 1..])
  }

  /** Taking the piece before the next ',' moves it from the unsplit rest to the pieces read. */
  lemma SplitAdvance(arg: string, pushed: seq<string>, rest: string, p: nat)
    requires Split(arg) == pushed + Split(rest) && Find(rest, ',') == Some(p)
    ensures Split(arg) == (pushed + [rest[..p]]) + Split(rest[p + 1..])
  {
    assert Split(rest) == [rest[..p]] + Split(rest[p + 1..]);
  }

  /** No piece holds a ','. */
  lemma {:induction false} SplitCommaFree(s: string)
    ensures forall i | 0 <= i < |Split(s)| :: ',' !in Split(s)[i]
    decreases |s|
  {
    FindFirst(s, ',');
    match Find(s, ',')
    case None =>
    case Some(p) =>
      SplitCommaFree(s[p + 1..]);
      assert Split(s) == [s[..p]] + Split(s[p + 1..]);
  }

  /** The pieces put back together with ',' between them. */
  function Join(ts: seq<string>): string
    requires |ts| > 0
  {
    if |ts| == 1 then ts[0] else ts[0] + [','] + Join(ts[1..])
  }

  /** Splitting loses nothing: joining the pieces gives back the string. */
  lemma {:induction false} JoinSplit(s: string)
    ensures Join(Split(s)) == s
    decreases |s|
  {
    match Find(s, ',')
    case None =>
    case Some(p) =>
      var rest := s[p + 1..];
      JoinSplit(rest);
      assert Split(s) == [s[..p]] + Split(rest);
      assert s == s[..p] + [','] + rest;
  }

  /** Pieces without ',' come back unchanged from joining and splitting again. */
  lemma {:induction false} SplitJoin(ts: seq<string>)
    requires |ts| > 0
    requires forall i | 0 <= i < |ts| :: ',' !in ts[i]
    ensures Split(Join(ts)) == ts
  {
    if |ts| > 1 {
      var rest := Join(ts[1..]);
      var s := ts[0] + [','] + rest;
      SplitJoin(ts[1..]);
      FindAfter(ts[0], rest, ',');
      assert s[..|ts[0]|] == ts[0];
      assert s[|ts[0]| + 1..] == rest;
      assert Split(s) == [ts[0]] + ts[1..];
    }
  }

  /** The first c in t + [c] + rest is the one after t when t holds none. */
  lemma FindAfter(t: string, rest: string, c: char)
    requires c !in t
    ensures Find(t + [c] + rest, c) == Some(|t|)
  {
    var s := t + [c] + rest;
    assert s[|t|] == c;
    FindFirst(s, c);
    assert s[..|t|] == t;
  }

  /** C isspace: blank, tab, newline, vertical tab, form feed and carriage return. */
  predicate IsSpace(c: char) {
    c == ' ' || '\t' <= c <= '\r'
  }

  /** A word as >> extracts it: at least one character and no whitespace. */
  predicate IsWord(w: string) {
    |w| > 0 && forall k | 0 <= k < |w| :: !IsSpace(w[k])
  }

  /** The first position at or after i that is not whitespace (or the end). */
  function SkipSpaces(s: string, i: nat): (j: nat)
    requires i <= |s|
    ensures i <= j <= |s|
    ensures forall k | i <= k < j :: IsSpace(s[k])
    ensures j < |s| ==> !IsSpace(s[j])
    decreases |s| - i
  {
    if i == |s| || !IsSpace(s[i]) then i else SkipSpaces(s, i + 1)
  }

  /** The first position at or after i that is whitespace (or the end). */
  function WordEnd(s: string, i: nat): (j: nat)
    requires i <= |s|
    ensures i <= j <= |s|
    ensures forall k | i <= k < j :: !IsSpace(s[k])
    ensures j < |s| ==> IsSpace(s[j])
    decreases |s| - i
  {
    if i == |s| || IsSpace(s[i]) then i else WordEnd(s, i + 1)
  }

  /**
   * One extraction with >> from position i: skip whitespace, then take the longest run
   * of other characters, returning it and the position after it; None when only
   * whitespace is left (the stream fails and the loop ends).
   */
  function Extract(s: string, i: nat): (r: Option<(string, nat)>)
    requires i <= |s|
    ensures r.Some? ==> i < r.value.1 <= |s| && 0 < |r.value.0| <= r.value.1 - i
    ensures r.Some? ==> r.value.0 == s[r.value.1 - |r.value.0|..r.value.1]
  {
    var j := SkipSpaces(s, i);
    if j == |s| then None else var e := WordEnd(s, j); Some((s[j..e], e))
  }

  /**
   * An extraction fails exactly when only whitespace is left; otherwise it reads a word
   * that ends at the end of the text or before whitespace.
   */
  lemma ExtractShape(s: string, i: nat)
    requires i <= |s|
    ensures Extract(s, i).None? <==> forall k | i <= k < |s| :: IsSpace(s[k])
    ensures Extract(s, i).Some? ==> IsWord(Extract(s, i).value.0)
    ensures Extract(s, i).Some? ==> var e := Extract(s, i).value.1; e == |s| || IsSpace(s[e])
  {
    var j := SkipSpaces(s, i);
    if j < |s| {
      var e := WordEnd(s, j);
      assert s[j..e][0] == s[j];
    }
  }

  /** The words of s from position i on, in order. */
  function WordsFrom(s: string, i: nat): seq<string>
    requires i <= |s|
    decreases |s| - i
  {
    match Extract(s, i)
    case None => []
    case Some((w, e)) => [w] + WordsFrom(s, e)
  }

  /** Reading the word at i moves it from the words still to read to the words read. */
  lemma WordsAdvance(s: string, read: seq<string>, i: nat)
    requires i <= |s| && read + WordsFrom(s, i) == Words(s) && Extract(s, i).Some?
    ensures var (w, e) := Extract(s, i).value; (read + [w]) + WordsFrom(s, e) == Words(s)
  {
    var (w, e) := Extract(s, i).value;
    assert WordsFrom(s, i) == [w] + WordsFrom(s, e);
    assert read + ([w] + WordsFrom(s, e)) == (read + [w]) + WordsFrom(s, e);
  }

  /** The words of a command line: every extraction with >> until the stream fails. */
  function Words(s: string): seq<string> {
    WordsFrom(s, 0)
  }

  /** Every word is non-empty and free of whitespace. */
  lemma WordsAreWords(s: string)
    ensures forall k | 0 <= k < |Words(s)| :: IsWord(Words(s)[k])
  {
    WordsFromAreWords(s, 0);
  }

  lemma {:induction false} WordsFromAreWords(s: string, i: nat)
    requires i <= |s|
    ensures forall k | 0 <= k < |WordsFrom(s, i)| :: IsWord(WordsFrom(s, i)[k])
    decreases |s| - i
  {
    ExtractShape(s, i);
    match Extract(s, i)
    case None =>
    case Some((w, e)) =>
      WordsFromAreWords(s, e);
      assert WordsFrom(s, i) == [w] + WordsFrom(s, e);
  }

  /** The characters of s that are not whitespace, in order. */
  function NonSpace(s: string): string {
    if s == [] then [] else (if IsSpace(s[0]) then [] else [s[0]]) + NonSpace(s[1..])
  }

  function Concat(ws: seq<string>): string {
    if ws == [] then [] else ws[0] + Concat(ws[1..])
  }

  /** The words hold every character that is not whitespace, in order, and nothing else. */
  lemma {:induction false} WordsKeepText(s: string)
    ensures Concat(Words(s)) == NonSpace(s)
  {
    WordsFromKeepText(s, 0);
  }

  lemma {:induction false} WordsFromKeepText(s: string, i: nat)
    requires i <= |s|
    ensures Concat(WordsFrom(s, i)) == NonSpace(s[i..])
    decreases |s| - i
  {
    var j := SkipSpaces(s, i);
    SkippedText(s, i);
    if j < |s| {
      var e := WordEnd(s, j);
      WordsFromKeepText(s, e);
      WordText(s, j);
      assert WordsFrom(s, i) == [s[j..e]] + WordsFrom(s, e);
    }
  }

  /** Whitespace skipped by an extraction holds no text. */
  lemma SkippedText(s: string, i: nat)
    requires i <= |s|
    ensures NonSpace(s[i..]) == NonSpace(s[SkipSpaces(s, i)..])
  {
    var j := SkipSpaces(s, i);
    NonSpaceAppend(s[i..j], s[j..]);
    NonSpaceOfSpaces(s[i..j]);
    assert s[i..] == s[i..j] + s[j..];
  }

  /** A word read from j is the text from j up to where the word ends. */
  lemma WordText(s: string, j: nat)
    requires j <= |s|
    ensures var e := WordEnd(s, j); NonSpace(s[j..]) == s[j..e] + NonSpace(s[e..])
  {
    var e := WordEnd(s, j);
    NonSpaceAppend(s[j..e], s[e..]);
    NonSpaceOfWord(s[j..e]);
    assert s[j..] == s[j..e] + s[e..];
  }

  lemma {:induction false} NonSpaceAppend(a: string, b: string)
    ensures NonSpace(a + b) == NonSpace(a) + NonSpace(b)
  {
    if a != [] {
      NonSpaceAppend(a[1..], b);
      var head := if IsSpace(a[0]) then [] else [a[0]];
      assert (a + b)[0] == a[0] && (a + b)[1..] == a[1..] + b;
      assert NonSpace(a + b) == head + NonSpace(a[1..] + b);
    } else {
      assert a + b == b;
    }
  }

  lemma {:induction false} NonSpaceOfSpaces(a: string)
    requires forall k | 0 <= k < |a| :: IsSpace(a[k])
    ensures NonSpace(a) == []
  {
    if a != [] {
      NonSpaceOfSpaces(a[1..]);
    }
  }

  lemma {:induction false} NonSpaceOfWord(a: string)
    requires forall k | 0 <= k < |a| :: !IsSpace(a[k])
    ensures NonSpace(a) == a
  {
    if a != [] {
      NonSpaceOfWord(a[1..]);
    }
  }

  /** The words joined with one blank between them. */
  function Spaced(ws: seq<string>): string {
    if ws == [] then [] else if |ws| == 1 then ws[0] else ws[0] + [' '] + Spaced(ws[1..])
  }

  /** Words joined with blanks are extracted again one by one. */
  lemma WordsSpaced(ws: seq<string>)
    requires forall k | 0 <= k < |ws| :: IsWord(ws[k])
    ensures Words(Spaced(ws)) == ws
  {
    var s := Spaced(ws);
    assert s[0..] == s;
    SpacedLayout(s, 0, ws);
    WordsFromSpaced(s, 0, ws);
  }

  /** s holds, from i to its end, the words ws with one blank between neighbours. */
  predicate SpacedAt(s: string, i: nat, ws: seq<string>)
    decreases |ws|
  {
    i <= |s| &&
    if ws == [] then i == |s|
    else if |ws| == 1 then IsWord(ws[0]) && s[i..] == ws[0]
    else
      var e := i + |ws[0]|;
      IsWord(ws[0]) && e < |s| && s[i..e] == ws[0] && s[e] == ' ' && SpacedAt(s, e + 1, ws[1..])
  }

  /** Text built by Spaced is laid out word, blank, word, ... as SpacedAt describes. */
  lemma {:induction false} SpacedLayout(s: string, i: nat, ws: seq<string>)
    requires forall k | 0 <= k < |ws| :: IsWord(ws[k])
    requires i <= |s| && s[i..] == Spaced(ws)
    ensures SpacedAt(s, i, ws)
    decreases |ws|
  {
    if |ws| > 1 {
      SpacedParts(s, i, ws);
      SpacedLayout(s, i + |ws[0]| + 1, ws[1..]);
    }
  }

  /** Extraction from a position where the spaced words begin reads exactly those words. */
  lemma {:induction false} WordsFromSpaced(s: string, i: nat, ws: seq<string>)
    requires SpacedAt(s, i, ws)
    ensures WordsFrom(s, i) == ws
    decreases |ws|
  {
    if |ws| <= 1 {
      WordsFromLast(s, i, ws);
      assert WordsFrom(s, i) == ws;
    } else {
      var w, rest := ws[0], ws[1..];
      var e := i + |w|;
      WordThenSpace(s, i, e, w);
      WordsFromSpaced(s, e + 1, rest);
      assert ws == [w] + rest;
      assert WordsFrom(s, i) == ws;
    }
  }

  /** Where no word or a single word is left, extraction reads just that. */
  lemma WordsFromLast(s: string, i: nat, ws: seq<string>)
    requires |ws| <= 1 && SpacedAt(s, i, ws)
    ensures WordsFrom(s, i) == ws
  {
    if ws == [] {
      assert SkipSpaces(s, i) == |s|;
    } else {
      WordsFromWord(s, i, |s|, ws[0]);
      assert SkipSpaces(s, |s|) == |s|;
    }
  }

  /** A word followed by a blank is read, and extraction goes on after the blank. */
  lemma WordThenSpace(s: string, i: nat, e: nat, w: string)
    requires IsWord(w) && e == i + |w| < |s| && s[i..e] == w && s[e] == ' '
    ensures WordsFrom(s, i) == [w] + WordsFrom(s, e + 1)
  {
    WordsFromWord(s, i, e, w);
    WordsFromSkip(s, e);
  }

  /** Where two or more spaced words begin, the first is followed by a blank and the rest. */
  lemma SpacedParts(s: string, i: nat, ws: seq<string>)
    requires |ws| > 1 && i <= |s| && s[i..] == Spaced(ws)
    ensures var e := i + |ws[0]|;
      e < |s| && s[i..e] == ws[0] && s[e] == ' ' && s[e + 1..] == Spaced(ws[1..])
  {
    var w, e := ws[0], i + |ws[0]|;
    SliceParts(s, i, w + [' '], Spaced(ws[1..]));
    assert s[i..e] == s[i..e + 1][..|w|] == w;
    assert s[e] == s[i..e + 1][|w|] == ' ';
  }

  /** A suffix that is a + b holds a first, then b. */
  lemma SliceParts(s: string, i: nat, a: string, b: string)
    requires i <= |s| && s[i..] == a + b
    ensures i + |a| <= |s| && s[i..i + |a|] == a && s[i + |a|..] == b
  {
    assert s[i..][..|a|] == a;
    assert s[i..][|a|..] == b;
  }

  /** Extraction at the start of a word w reads w, then goes on after it. */
  lemma WordsFromWord(s: string, i: nat, e: nat, w: string)
    requires IsWord(w) && e == i + |w| <= |s| && s[i..e] == w
    requires e == |s| || IsSpace(s[e])
    ensures WordsFrom(s, i) == [w] + WordsFrom(s, e)
  {
    assert s[i] == w[0];
    assert SkipSpaces(s, i) == i;
    assert forall k | i <= k < e :: s[k] == w[k - i];
    WordEndAt(s, i, e);
  }

  /** WordEnd stops at e when s[i..e] is free of whitespace and e is the end or whitespace. */
  lemma {:induction false} WordEndAt(s: string, i: nat, e: nat)
    requires i <= e <= |s|
    requires forall k | i <= k < e :: !IsSpace(s[k])
    requires e == |s| || IsSpace(s[e])
    ensures WordEnd(s, i) == e
    decreases e - i
  {
    if i < e {
      WordEndAt(s, i + 1, e);
    }
  }

  /** Extraction from a position of whitespace reads the same words as from after it. */
  lemma WordsFromSkip(s: string, i: nat)
    requires i < |s| && IsSpace(s[i])
    ensures WordsFrom(s, i) == WordsFrom(s, i + 1)
  {
    assert SkipSpaces(s, i) == SkipSpaces(s, i + 1);
  }
}

=== FILE: unique_vector.dfy ===
/**
 * unique_vector: an insertion-ordered vector whose push_back appends a value only when
 * it is not already there, so the vector never holds the same value twice.
 */
module UniqueVectors {
  import opened Limits
  import opened Optional

  /** No value occurs twice. */
  predicate Distinct<T(==,!new)>(s: seq<T>) {
    forall i, j | 0 <= i < j < |s| :: s[i] != s[j]
  }

  /**
   * push_back on the contents: the value is appended when absent and ignored when present.
   * The old contents stay a prefix, the value is there afterwards, nothing else is added,
   * and a duplicate-free vector stays duplicate-free.
   */
  function PushUnique<T(==,!new)>(s: seq<T>, v: T): (r: seq<T>)
    ensures s <= r && v in r
    ensures |r| == if v in s then |s| else |s| + 1
    ensures Distinct(s) ==> Distinct(r)
  {
    if v in s then s else s + [v]
  }

  /** push_back adds no value other than the one pushed. */
  lemma PushUniqueContents<T(!new)>(s: seq<T>, v: T)
    ensures forall x :: x in PushUnique(s, v) <==> x in s || x == v
  {
  }

  /** push_back of each value of vs in turn. */
  function PushAll<T(==,!new)>(s: seq<T>, vs: seq<T>): seq<T> {
    if vs == [] then s else PushUnique(PushAll(s, vs[..|vs| - 1]), vs[|vs| - 1])
  }

  lemma PushAllAppend<T(!new)>(s: seq<T>, vs: seq<T>, v: T)
    ensures PushAll(s, vs + [v]) == PushUnique(PushAll(s, vs), v)
  {
    assert (vs + [v])[..|vs|] == vs;
  }

  /**
   * Pushing several values keeps the old contents as a prefix, holds exactly the old values
   * and the pushed ones, and keeps a duplicate-free vector duplicate-free.
   */
  lemma {:induction false} PushAllContents<T(!new)>(s: seq<T>, vs: seq<T>)
    ensures s <= PushAll(s, vs)
    ensures forall x :: x in PushAll(s, vs) <==> x in s || x in vs
    ensures Distinct(s) ==> Distinct(PushAll(s, vs))
  {
    if vs != [] {
      var init := vs[..|vs| - 1];
      PushAllContents(s, init);
      PushUniqueContents(PushAll(s, init), vs[|vs| - 1]);
      assert vs == init + [vs[|vs| - 1]];
    }
  }

  /** A duplicate-free sequence has as many elements as distinct values. */
  lemma {:induction false} DistinctCardinality<T(!new)>(s: seq<T>)
    ensures Distinct(s) ==> |set x | x in s| == |s|
  {
    if s != [] && Distinct(s) {
      var init, last := s[..|s| - 1], s[|s| - 1];
      DistinctCardinality(init);
      assert (set x | x in s) == (set x | x in init) + {last} by {
        assert s == init + [last];
      }
    }
  }

  class UniqueVector<T(==,!new)> {
    /** mVector */
    var items: seq<T>

    ghost predicate Valid()
      reads this
    {
      Distinct(items)
    }

    constructor ()
      ensures Valid() && items == []
    {
      items := [];
    }

    /** push_back: append the value unless contains finds it. */
    method PushBack(value: T)
      requires Valid()
      modifies this
      ensures Valid()
      ensures items == PushUnique(old(items), value)
    {
      if !Contains(value) {
        items := items + [value];
      }
    }

    /** contains: std::find over the contents reaches the value before the end. */
    function Contains(value: T): (found: bool)
      reads this
      ensures found <==> exists i | 0 <= i < |items| :: items[i] == value
    {
      value in items
    }

    /**
     * at and the const operator[]: the value at index, or None where vector::at throws
     * std::out_of_range.
     */
    function At(index: nat): (r: Option<T>)
      reads this
      ensures r.Some? <==> index < Size()
      ensures r.Some? ==> Contains(r.value) && items[index] == r.value
    {
      if index < |items| then Some(items[index]) else None
    }

    /** size: for a duplicate-free vector, the number of distinct values it holds. */
    function Size(): (n: nat)
      reads this
      ensures Valid() ==> n == |set x | x in items|
    {
      DistinctCardinality(items);
      |items|
    }

    /** end(e): the position e when e is not npos and at most the size, the size otherwise. */
    function End(e: nat): (p: nat)
      reads this
      ensures p <= Size()
      ensures e != NPOS && e <= Size() ==> p == e
      ensures e == NPOS || Size() < e ==> p == Size()
    {
      if e != NPOS && e <= |items| then e else |items|
    }

    /**
     * The non-const operator[]: a writable reference to the value at index, assigned here;
     * false where vector::at throws std::out_of_range. The write bypasses push_back.
     */
    method Assign(index: nat, value: T) returns (ok: bool)
      modifies this
      ensures ok <==> index < |old(items)|
      ensures items == if ok then old(items)[index := value] else old(items)
      ensures old(Valid()) ==> (Valid() <==> !ok || value == old(items)[index] || value !in old(items))
    {
      ok := index < |items|;
      if ok {
        ghost var wasDistinct := Distinct(items);
        if wasDistinct {
          AssignDistinct(items, index, value);
        }
        items := items[index := value];
      }
    }
  }

  /**
   * Writing through the non-const operator[] keeps a duplicate-free vector duplicate-free
   * exactly when the value written is the one already there or occurs nowhere else.
   */
  lemma AssignDistinct<T(!new)>(s: seq<T>, index: nat, v: T)
    requires Distinct(s) && index < |s|
    ensures Distinct(s[index := v]) <==> v == s[index] || v !in s
  {
    var t := s[index := v];
    if v != s[index] && v in s {
      var j :| 0 <= j < |s| && s[j] == v;
      assert j != index && t[j] == t[index];
    } else {
      forall i, k | 0 <= i < k < |t|
        ensures t[i] != t[k]
      {
        if i != index && k != index {
          assert t[i] == s[i] && t[k] == s[k];
        }
      }
    }
  }
}
